=== FILE: README.md ===
# ReachOut Academy web: a Dafny model of its backend and admin frontend

ReachOut Academy's web application has two parts.

The **backend** is an Express service. It serves:
- a public course catalogue;
- a public certificate-verification endpoint;
- an admin area behind a JWT bearer-token gate (`authMiddleware`).

The admin area manages courses and issued certificates; admins sign in with an email and a bcrypt-hashed password. The backend stores three Supabase tables: `admin_users`, `certificates` and `courses`.

The **frontend** is a React single-page application. It contains:
- `AuthProvider`, which holds the session token in `localStorage` and in the default axios `Authorization` header;
- `ProtectedRoute`, which guards the three admin pages;
- the public verification page;
- the admin pages that list, create, edit and delete certificates and courses;
- a dashboard that computes statistics from the two lists.

The model is organised as follows:

- **Backend tables.** Each table is a class: `AdminTable`, `CertificateTable` and `CourseTable`.
  - Each class holds the rows in insertion order and a `serial` counter that stands for the store's id sequence and its clock. A new row gets `id = created_at = serial`.
  - "Ordered by `created_at` descending" is then the reversed row sequence.
  - `.eq(...).single()` is `Table.Single`: a row only when exactly one matches.
- **Backend handlers.**
  - Handlers that only read (`login`, `getCurrentUser`, `verifyCertificate`, the listings, `getCourseById`) are functions over the rows.
  - Handlers that write (`createAdminUser`, `createCertificate`, `deleteCertificate`, `createCourse`, `updateCourse`, `deleteCourse`, `setupAdminUser`) are methods of the table classes.
  - Every error path of the source is a `Response` with the source's status code and message.
  - A store failure is a `bool` parameter at the step where the source answers 500.
- **Request bodies.** A body field is `Field = Undefined | Null | Text(s)`. JavaScript truthiness of a field is `Truthy`: a non-empty text.
- **Crypto.** bcrypt and JWT are function parameters: `Hasher`, `Checker`, `Signer` and `Verifier` (in `Crypto`).
- **Routing.** The three routers are route tables. `Routes.Dispatch` picks the first matching route and runs the gate before a guarded handler.
- **Frontend.** The browser is the `Browser` class: `localStorage`, `window.location.href` and the axios default headers.
  - Each page or provider is a class holding its React state.
  - An `async` handler is split at its `await`: the synchronous part is one method, and the part after the reply is another that takes the reply (`Reply<T> = Ok | HttpError | NetworkError`) as a parameter.
  - Form state is a JavaScript object, modelled as a `map`.

## Model

| member | source | states |
|---|---|---|
| Common.Trim | frontend/src/pages/VerifyCertificate.js:14-26 | the result is empty exactly when the text is all white space, and otherwise it is the slice of the text that starts and ends with a non-white-space character and has only white space before and after it |
| Common.NatToStringRoundTrip | frontend/src/admin/ManageCertificates.js:53 | the decimal numeral of a number reads back as that number |
| Common.PadStart | frontend/src/admin/ManageCertificates.js:53 | `padStart(width, '0')`: leading zeros up to the width, the text itself at the end |
| Common.ZerosPrefixValue | frontend/src/admin/ManageCertificates.js:53 | leading zeros do not change the value a digit string spells |
| Common.LowerOfLower | backend/controllers/authController.js:22 | `toLowerCase` is idempotent: looking up an already lower-cased email finds the same row |
| Table.Single | backend/controllers/authController.js:19-23 | `.single()`: a row only when exactly one row matches, and then that row |
| Table.SingleOnDistinct | backend/controllers/certController.js:15-19 | on a column with distinct values `.single()` finds a row exactly when some row has the key, and it is that row |
| Table.DeleteUnique | backend/controllers/certController.js:180-183 | deleting by a unique key removes exactly that row and keeps the order of the others |
| Table.ReverseDecreasing | backend/controllers/certController.js:63-66 | rows inserted with increasing `created_at`, listed newest first, are in decreasing `created_at` order |
| Table.ReversePermutes | backend/controllers/courseController.js:6-9 | the ordered listing holds exactly the table's rows |
| AuthMiddleware.Authorize | backend/middleware/auth.js:6-37 | accepts exactly a header that starts with `Bearer `, has a non-empty rest and carries a token that verifies, and then passes on the decoded claims; a missing header, another scheme or an empty token gives 401 "Access denied. No token provided."; a token that does not verify gives 401 "Invalid token." |
| AuthMiddleware.BearerRoundTrip | backend/middleware/auth.js:8-16 | `Bearer ` followed by a token gives that same token back, so the gate accepts it exactly when the token verifies |
| AuthMiddleware.RunAuthMiddleware | backend/middleware/auth.js:3-37 | on acceptance `req.user` is set and `next()` runs once, with no response; on rejection the 401 response is sent and `next()` never runs |
| AuthController.Login | backend/controllers/authController.js:6-62 | 400 when either credential is missing; 200 exactly when the lower-cased email finds one admin and the password matches its hash, and then the token is signed over `{id, email, role: 'admin'}` for 24 hours and the user is returned without its hash; every other case is 401 "Invalid credentials" |
| AuthController.AnyCasingLogsIn | backend/controllers/authController.js:19-23 | an email that differs from the stored one only in letter case signs in, given the right password |
| AuthController.LoginFailuresAlike | backend/controllers/authController.js:25-39 | an unknown email and a wrong password get the very same 401 answer |
| AuthController.Logout | backend/controllers/authController.js:73-78 | always 200, not an error, with the message "Logout successful" and no data |
| AuthController.GetCurrentUser | backend/controllers/authController.js:89-111 | 200 with the admin's id, email and time stamps (never the hash) exactly when the token's id finds one row, otherwise 404 "User not found" |
| AuthController.CurrentUserOfRow | backend/controllers/authController.js:93-111 | on a table with distinct ids the caller is found exactly when some row has the token's id, and that row is returned |
| AuthController.AdminTable.Insert | backend/controllers/authController.js:156-163 | a new row with the next id and time stamp is appended; the table keeps distinct lower-case emails and increasing ids |
| AuthController.AdminTable.CreateAdminUser | backend/controllers/authController.js:125-177 | 400 when a credential is missing; 400 "Admin user already exists" when the lower-cased email is taken; 500 when the insert fails; otherwise 201 with the new row, whose email is lower-cased and whose hash uses 12 salt rounds; the table and its id counter change only on 201, when the counter advances by one |
| SetupAdmin.DefaultRow | backend/scripts/setup-admin.js:21-38 | the seeded admin is `admin@reachoutacademy.com`, lower-cased, with the hash of `admin123` at 12 salt rounds |
| SetupAdmin.SetupAdminUser | backend/scripts/setup-admin.js:5-45 | when the "any admin?" query succeeds, a table with any admin is left alone ("already exists"); an empty one gets the default admin, unless the insert fails, which leaves it empty; the id counter advances by one exactly when the default admin is created |
| SetupAdmin.SetupIdempotent | backend/scripts/setup-admin.js:10-18 | running setup again after it succeeded changes nothing |
| SetupAdmin.SetupTwice | backend/scripts/setup-admin.js:10-18 | a second run of the script reports that the admin already exists and leaves the table as the first run did |
| CertController.VerifyCertificate | backend/controllers/certController.js:4-58 | 400 for an empty number; 500 when the lookup fails; 404 when no certificate has the number; otherwise 200 with the record and `valid` true exactly when its status is 'Valid' |
| CertController.VerifyFindsRow | backend/controllers/certController.js:15-50 | with distinct numbers, verification succeeds exactly when some certificate has the number, and returns that certificate |
| CertController.GetAllCertificates | backend/controllers/certController.js:61-80 | 500 on a failed read; otherwise 200 with every certificate once, newest first, and `count` equal to their number |
| CertController.ListingNewestFirst | backend/controllers/certController.js:63-66 | the listing is in decreasing `created_at` order |
| CertController.StatusOf | backend/controllers/certController.js:93 | the destructuring default: status 'Valid' only when the body has no status at all |
| CertController.CertificateTable.CreateCertificate | backend/controllers/certController.js:91-150 | checks in the source's order: 400 for a missing field, 400 when the number is taken, 400 when the date does not parse, 500 when the insert fails, otherwise 201 with the new row appended; the table and its id counter change only on 201, when the counter advances by one, and the table keeps distinct numbers |
| CertController.CertificateTable.DeleteCertificate | backend/controllers/certController.js:161-196 | 404 when no certificate has the id; 500 when the delete fails; otherwise 200 with exactly that row removed and the rest in order |
| CertController.RemoveRow | backend/controllers/certController.js:180-183 | deleting by id on a well-formed table removes exactly the row with that id, keeps the others in order, and keeps ids, time stamps and numbers well formed |
| CourseController.GetAllCourses | backend/controllers/courseController.js:4-23 | 500 on a failed read; otherwise 200 with every course once, newest first, and `count` equal to their number |
| CourseController.ListingNewestFirst | backend/controllers/courseController.js:6-9 | the listing is in decreasing `created_at` order |
| CourseController.GetCourseById | backend/controllers/courseController.js:34-61 | 500 when the lookup fails; 404 when no course has the id; otherwise 200 with a course of that id from the table |
| CourseController.FetchFindsRow | backend/controllers/courseController.js:38-58 | with distinct ids, a fetch succeeds exactly when a course has the id, and returns that course |
| CourseController.ImageOf | backend/controllers/courseController.js:91 | `image_url \|\| null`: a non-empty link is stored, anything else becomes `null` |
| CourseController.Merge | backend/controllers/courseController.js:139-148 | an update keeps the id and `created_at`, stamps `updated_at`, sets title, description, duration and image link to a string the body sends and clears them on `null`, leaves every field the body leaves out unchanged, keeps the fee when the body's fee is falsy, and stores the parsed fee otherwise |
| CourseController.MergeIdempotent | backend/controllers/courseController.js:139-148 | applying the same update twice gives the same record as applying it once |
| CourseController.EmptyUpdateStampsOnly | backend/controllers/courseController.js:139-148 | an update with an empty body changes only `updated_at` |
| CourseController.CourseTable.CreateCourse | backend/controllers/courseController.js:72-107 | 400 when title, description, duration or fee is falsy; 500 when the insert fails; otherwise 201 with a new row holding the parsed fee and `image_url \|\| null`, appended; the table changes only on 201 |
| CourseController.CourseTable.UpdateCourse | backend/controllers/courseController.js:119-164 | 404 when no course has the id; 500 when the update fails; otherwise 200 with exactly the rows of that id replaced by the merged record and the others unchanged |
| CourseController.CourseTable.DeleteCourse | backend/controllers/courseController.js:176-211 | 404 when no course has the id; 500 when the delete fails; otherwise 200 with exactly that row removed |
| CourseController.RemoveRow | backend/controllers/courseController.js:195-198 | deleting by id on a well-formed table removes exactly the row with that id and keeps the others in order and well formed |
| CourseController.CreateThenFetch | backend/controllers/courseController.js:72-107 | a course just created is found by its id with the same record |
| Routes.FindRoute | backend/routes/courseRoutes.js:7-13 | the first route whose method and pattern match the request, or none when no route does |
| Routes.Dispatch | backend/routes/certRoutes.js:7-12 | no route gives express's own 404; a guarded route runs the gate and returns its 401, or runs the handler with the decoded user; an open route runs its handler with no user |
| Routes.PrivilegedRunsOnlyAfterGate | backend/routes/certRoutes.js:10-12 | in a table that guards every writing or private handler, such a handler only ever runs with a user the gate accepted |
| Routes.RoutersGuardPrivileged | backend/routes/courseRoutes.js:11-13 | all three routers guard every handler that changes data or reveals the admin or the full certificate list |
| Routes.FirstServes | backend/routes/courseRoutes.js:7-13 | a request goes to the first route that serves it: through the gate when that route is guarded, straight to its handler otherwise |
| Routes.VerifyIsPublic | backend/routes/certRoutes.js:7 | `GET /verify/:number` runs the verification handler whatever the header |
| Routes.CertListAndCreateGated | backend/routes/certRoutes.js:10-11 | listing and issuing certificates go through the gate |
| Routes.CertDeleteGated | backend/routes/certRoutes.js:12 | deleting a certificate goes through the gate |
| Routes.CourseReadsPublic | backend/routes/courseRoutes.js:7-8 | listing and fetching courses are public |
| Routes.CourseWritesGated | backend/routes/courseRoutes.js:11-12 | creating and updating a course go through the gate |
| Routes.CourseDeleteGated | backend/routes/courseRoutes.js:13 | deleting a course goes through the gate |
| Routes.SessionRoutesPublic | backend/routes/authRoutes.js:7-8 | sign-in and sign-out are public |
| Routes.CreateAdminPublic | backend/routes/authRoutes.js:10 | creating an admin is public: the route has no gate |
| Routes.MeIsGated | backend/routes/authRoutes.js:9 | `/me` goes through the gate and, with no header, answers 401 "Access denied. No token provided." |
| AuthUtils.Split | frontend/src/utils/authUtils.js:26 | `split('.')` gives at least one part and no part contains a dot |
| AuthUtils.SplitCount | frontend/src/utils/authUtils.js:26-27 | `split` gives one more part than there are separators |
| AuthUtils.SplitJoin | frontend/src/utils/authUtils.js:26 | joining the parts with the separator gives the text back |
| AuthUtils.GetAuthData | frontend/src/utils/authUtils.js:8-15 | the token is the stored `adminToken` when there is one, and absent otherwise |
| AuthUtils.CheckAuthStatusShape | frontend/src/utils/authUtils.js:17-38 | the check passes exactly when a non-empty token is stored and it has exactly two dots (three parts) |
| AuthUtils.ClearAuthData | frontend/src/utils/authUtils.js:3-6 | only `adminToken` is removed from storage |
| AuthUtils.ForceLogout | frontend/src/utils/authUtils.js:41-44 | the token is removed, the browser goes to `/admin/login`, and the status check then fails |
| AuthContext.HeaderFor | frontend/src/context/AuthContext.js:28-34 | a header is set exactly when a token is held, and it is `Bearer ` followed by the token |
| AuthContext.HeaderForAuthorizes | frontend/src/context/AuthContext.js:28-34 | the header the frontend sends passes the backend gate exactly when it holds a token that verifies, with that token's claims; no token is refused with "No token provided" |
| AuthContext.FailureMessage | frontend/src/context/AuthContext.js:79-84 | a failed sign-in shows the server's message when it sent a non-empty one, and "Login failed" otherwise |
| AuthContext.AuthProvider.constructor | frontend/src/context/AuthContext.js:15-17 | no user, loading, and the token read from `localStorage` |
| AuthContext.AuthProvider.Logout | frontend/src/context/AuthContext.js:20-25 | user and token are cleared, the stored token and the header are removed, and the session is no longer authenticated |
| AuthContext.AuthProvider.SyncHeader | frontend/src/context/AuthContext.js:28-34 | the default header is set to the bearer header when a token is held, and removed otherwise |
| AuthContext.AuthProvider.CheckAuth | frontend/src/context/AuthContext.js:37-63 | loading ends; with a token, a success sets the user; a 401, a 404 or a refused connection logs out; any other failure keeps the session |
| AuthContext.AuthProvider.Login | frontend/src/context/AuthContext.js:65-86 | success exactly when the request succeeded; then user and token come from the reply and the token is stored; a failure changes nothing and carries the failure message |
| AuthContext.SignIn | frontend/src/context/AuthContext.js:65-94 | after a successful sign-in the session is authenticated, the token is stored and, once synchronised, the header carries it |
| ProtectedRoute.Guard | frontend/src/components/ProtectedRoute.js:18-38 | the spinner exactly while loading; the children exactly when loaded and authenticated; otherwise a replacing redirect to `/admin/login` that remembers the location |
| ProtectedRoute.ChildrenOnlyWhenSignedIn | frontend/src/components/ProtectedRoute.js:30-38 | whether the protected content shows does not depend on the location |
| AppRoutes.Lookup | frontend/src/App.js:33-59 | the route declared for a path, or none when no route has that path |
| AppRoutes.GuardedExactlyAdmin | frontend/src/App.js:33-59 | exactly the dashboard, course and certificate admin pages are wrapped in the guard, and each path is declared once |
| AppRoutes.AdminPagesNeedSession | frontend/src/App.js:44-58 | an admin page shows only to an authenticated session whose start-up check is over; unguarded pages are never admin pages |
| VerifyPage.Headline | frontend/src/pages/VerifyCertificate.js:134 | "Certificate Verified" exactly for a verified result, "Certificate Found" otherwise |
| VerifyPage.VerifyCertificatePage.BeginSubmit | frontend/src/pages/VerifyCertificate.js:11-22 | a blank number sets the prompt and sends nothing; otherwise result and error are cleared, loading starts, and the trimmed (non-empty) number is sent |
| VerifyPage.VerifyCertificatePage.FinishSubmit | frontend/src/pages/VerifyCertificate.js:24-39 | a success shows the record and takes `verified` from `valid`; a 404 shows the not-found message and any other failure the generic one; loading ends |
| VerifyPage.VerifyCertificatePage.ResetForm | frontend/src/pages/VerifyCertificate.js:42-47 | the number, result, error and verified flag are cleared |
| VerifyPage.PageAgreesWithBackend | frontend/src/pages/VerifyCertificate.js:14-30 | the page never sends an empty number, so never meets the backend's 400; on a found certificate the headline reads "Certificate Verified" exactly when its status is 'Valid' |
| VerifyPage.Submit | frontend/src/pages/VerifyCertificate.js:11-40 | a request goes out exactly when the number is not blank, with the trimmed number, and loading has ended afterwards |
| ManageCertificates.GeneratedNumberShape | frontend/src/admin/ManageCertificates.js:50-55 | a generated number is `CERT-`, three digits that spell the random draw, `-`, and the year |
| ManageCertificates.PaddedDraw | frontend/src/admin/ManageCertificates.js:53 | the padded draw is exactly three digits that spell the draw |
| ManageCertificates.DifferentDrawsDiffer | frontend/src/admin/ManageCertificates.js:50-55 | two different draws in the same year give different numbers |
| ManageCertificates.InputOf | frontend/src/admin/ManageCertificates.js:62 | the posted body carries each of the five form fields as the text given, and a missing one as absent |
| ManageCertificates.DefaultFormIsIncomplete | frontend/src/admin/ManageCertificates.js:10-16 | the untouched form is refused by the backend as incomplete, and its 'Valid' status is what the backend defaults to anyway |
| ManageCertificates.StatusBadge | frontend/src/admin/ManageCertificates.js:310-316 | green exactly for 'Valid', yellow exactly for 'Expired', red for anything else |
| ManageCertificates.BadgeAgreesWithVerification | frontend/src/admin/ManageCertificates.js:310-316 | the badge is green exactly for the certificates the public check reports as valid |
| ManageCertificates.CertificatesPage.FetchCertificates | frontend/src/admin/ManageCertificates.js:23-32 | a success replaces the list and a failure keeps it; loading ends |
| ManageCertificates.CertificatesPage.FetchCourses | frontend/src/admin/ManageCertificates.js:34-41 | a success replaces the course list and a failure keeps it |
| ManageCertificates.CertificatesPage.HandleInputChange | frontend/src/admin/ManageCertificates.js:43-48 | only the named field changes; the lists, visibility and loading flag are kept |
| ManageCertificates.CertificatesPage.UseGeneratedNumber | frontend/src/admin/ManageCertificates.js:211 | only the number field changes, to a generated number; the lists, visibility and loading flag are kept |
| ManageCertificates.CertificatesPage.SubmitRequest | frontend/src/admin/ManageCertificates.js:57-62 | the submit posts to `/api/certificates` a body carrying each of the five form fields as typed, and a missing one as absent |
| ManageCertificates.SubmitUntouched | frontend/src/admin/ManageCertificates.js:57-62 | submitting the untouched form is answered 400 for missing fields, and the certificate table and its id counter are unchanged |
| ManageCertificates.CertificatesPage.FinishSubmit | frontend/src/admin/ManageCertificates.js:57-78 | a success resets and hides the form and fetches again; a failure keeps the form; the lists and loading flag are kept |
| ManageCertificates.CertificatesPage.HandleDelete | frontend/src/admin/ManageCertificates.js:80-90 | a delete of `/api/certificates/<id>` goes out exactly when confirmed, and the list is fetched again exactly when it succeeded |
| ManageCertificates.CertificatesPage.ResetForm | frontend/src/admin/ManageCertificates.js:92-101 | the default form, hidden; the lists and loading flag are kept |
| ManageCourses.EditForm | frontend/src/admin/ManageCourses.js:63-71 | the form holds the record's fields as they are, and an empty link when the record has none |
| ManageCourses.CoursesPage.FetchCourses | frontend/src/admin/ManageCourses.js:22-31 | a success replaces the list and a failure keeps it; loading ends |
| ManageCourses.CoursesPage.HandleInputChange | frontend/src/admin/ManageCourses.js:33-38 | only the named field changes; the list, loading flag, visibility and edited course are kept |
| ManageCourses.CoursesPage.SubmitRequest | frontend/src/admin/ManageCourses.js:44-51 | an update of the edited course's id exactly while a course is being edited, a create otherwise, both with the whole form |
| ManageCourses.CoursesPage.FinishSubmit | frontend/src/admin/ManageCourses.js:43-60 | a success ends the edit, empties and hides the form and fetches again; a failure changes nothing |
| ManageCourses.CoursesPage.HandleEdit | frontend/src/admin/ManageCourses.js:63-73 | the course is remembered, the form is filled from it and shown |
| ManageCourses.CoursesPage.HandleDelete | frontend/src/admin/ManageCourses.js:75-85 | a delete of `/api/courses/<id>` goes out exactly when confirmed, and the list is fetched again exactly when it succeeded |
| ManageCourses.CoursesPage.ResetForm | frontend/src/admin/ManageCourses.js:87-91 | an empty form, no course being edited, hidden |
| ManageCourses.EditAndSave | frontend/src/admin/ManageCourses.js:40-73 | editing a course and saving it unchanged sends an update of that course, and a success leaves the page ready to create |
| Dashboard.OrEmpty | frontend/src/admin/Dashboard.js:41-42 | a missing list counts as empty |
| Dashboard.MonthWithinYear | frontend/src/admin/Dashboard.js:54-62 | the month's count never exceeds the year's |
| Dashboard.SortNewestFirst | frontend/src/admin/Dashboard.js:65-66 | the same certificates, newest issue date first |
| Dashboard.RecentFromList | frontend/src/admin/Dashboard.js:65-67 | at most five certificates (all when fewer), newest first, each from the list |
| Dashboard.RecentAreNewest | frontend/src/admin/Dashboard.js:65-67 | no certificate left out of the recent list was issued after one in it |
| Dashboard.CourseStats | frontend/src/admin/Dashboard.js:70-73 | one entry per course, in order, with its title and the number of certificates whose course name equals it |
| Dashboard.CourseStatsCountMatches | frontend/src/admin/Dashboard.js:70-73 | a course's count never exceeds the number of certificates, and a course without a title counts none |
| Dashboard.MonthsBack | frontend/src/admin/Dashboard.js:78 | `new Date(year, month - i, 1)` rolls over year ends: the result is a valid month exactly `i` months back |
| Dashboard.MonthlyTrends | frontend/src/admin/Dashboard.js:76-86 | six entries, oldest first; entry `k` is the month `5 - k` months back with its certificate count |
| Dashboard.TrendWindow | frontend/src/admin/Dashboard.js:76-86 | the window ends with the current month and its count, and each entry is the month after the one before it |
| Dashboard.StatsOfUnique | frontend/src/admin/Dashboard.js:41-97 | the statistics block is determined by the two lists and the date: two blocks that both describe them are equal |
| Dashboard.ComputeStats | frontend/src/admin/Dashboard.js:41-97 | the totals are the list lengths; this month's and this year's counts, the five newest certificates and the per-course counts are as defined above; the six trend entries are the months 5 back to 0 with their counts; this month's figure is the last trend entry and never exceeds the year's |
| Dashboard.DashboardPage.HandleAnalyticsClick | frontend/src/admin/Dashboard.js:105-110 | fetches exactly when opening the panel, and always toggles it |
| Dashboard.DashboardPage.FetchDashboardData | frontend/src/admin/Dashboard.js:32-103 | when both requests succeed the new statistics are the whole block for the two lists (totals, month and year counts, the month's at most the year's, recent list, per-course counts, every trend entry), otherwise they are kept; loading ends |

## Left out

- Common.Trim: white space is the six ASCII white-space characters (space, tab, line feed, carriage return, vertical tab, form feed). The other characters JavaScript's `trim` removes, such as the no-break space, the line and paragraph separators and the byte-order mark, are not treated as white space.
- Common.Lower: `toLowerCase` is modelled on ASCII letters only. There is no Unicode case mapping.
- Generic catch blocks: the outer `catch` of `authMiddleware` (500 "Internal server error during authentication.") and every controller's generic 500 "Internal server error" are not modelled. They answer exceptions that the modelled code does not raise, such as a thrown store client or a body that is not an object.
- Lookup errors: a lookup error other than "no row" is folded into the "not found" answer wherever the source treats both alike (`error \|\| !row`). That answer is 401 "Invalid credentials" for `login` and 404 for `getCurrentUser`, `deleteCertificate`, `updateCourse` and `deleteCourse`. An id in the URL that is not a number is not modelled: ids are natural numbers.
- CertController.CertificateTable.CreateCertificate: the error of the duplicate-number lookup is ignored, exactly as in the source. A failing lookup therefore counts as "not found" and does not get its own 500 path.
- AuthController.AdminTable.CreateAdminUser: the error of the duplicate-email lookup is ignored, exactly as in the source. A failing lookup therefore counts as "no such admin" and does not get its own 500 path.
- SetupAdmin.SetupAdminUser: the model assumes the "any admin?" query succeeds. In the source a failed query leaves the result empty, so the script treats the table as empty and attempts the insert anyway. Into a table holding other admins that adds the default row; into one already holding the default email it ends with "Error creating admin user", because emails are unique. Neither path is modelled, and `SetupIdempotent` and `SetupTwice` likewise assume the query succeeds. Console output is left out.
- Request-body values that are numbers: all body fields are absent, `null` or strings. A numeric fee posted by the frontend's edit form is taken as its text.
- Fees: parsing a fee is the `FeeParser` parameter, and fees are exact reals. `parseFloat`'s prefix parsing and floating-point rounding are not modelled.
- Dashboard.ComputeStats: `totalRevenue` (a floating-point sum) and the bar widths of the charts are not modelled.
- Dates:
  - Parsing an issue date is the `DateParser` parameter.
  - Time zones are not modelled.
  - The current date and `updated_at` come from parameters.
  - `created_at` is the table's logical clock.
  - The trend chart keeps a month's year and number; its locale short name is left out.
- Dashboard.SortNewestFirst: the in-place JavaScript `sort` is modelled as a stable insertion sort that returns a new sequence. The model does not capture that the page's array is reordered in place, which does not affect any of the counts.
- `server.js` is not part of this model. The routers' mount points (`/api/auth`, `/api/certificates`, `/api/courses`) are taken from the frontend's URLs.
- VerifyPage.PageAgreesWithBackend: URL-path encoding is not modelled. The page puts the trimmed number into the request path as it is, and the lemma takes the backend to receive exactly that text. A number holding `/`, `?`, `#` or `%`, or the numbers `.` and `..`, would in fact reach a different route or a shortened parameter, so for those numbers the page and the backend can disagree.
- VerifyPage.VerifyCertificatePage.BeginSubmit and VerifyPage.Submit: the request is the number sent, not the encoded URL; the same URL-path caveat applies.
- Routes.Matches and AppRoutes.Lookup: path segments are compared exactly. Express routers and React Router by default also match paths that differ in letter case or carry a trailing slash; those spellings are not modelled, so for them the model answers "no route" or a blank screen. Which routes are guarded does not depend on the spelling.
- HTTP and React plumbing: the JSON encoding, promise scheduling and re-rendering are left out. Answers from the server arrive as `Reply` parameters, and buttons disabled while loading are not modelled.
- Browser dialogs: `window.confirm` is a `confirmed` parameter, and the `alert` after a failure is not modelled.
- Static pages: Home, Courses, About, Contact and the sign-in/sign-up forms are not modelled. Only their routes are.
- AuthUtils.CheckAuthStatus: it has no contract of its own; its meaning is stated by `AuthUtils.CheckAuthStatusShape`. Its `catch` branch cannot be reached for a string token and is not modelled.
- Logging: the `console.log` diagnostics in `AuthContext`, `ProtectedRoute` and `authUtils` are left out.

=== FILE: app_routes.dfy ===
/** The page table of the single-page frontend (`App`): which path shows which
    page, and which pages are wrapped in `ProtectedRoute`. Every page is
    rendered inside the one `AuthProvider`, so every guard reads the same
    session state. */
module AppRoutes {
  import opened Common
  import ProtectedRoute

  datatype Page =
    | Home | Courses | About | Contact | VerifyCertificate
    | AdminLogin | AdminSignup | AdminDashboard | ManageCourses | ManageCertificates

  /** `<Route path element>`, `guarded` when the element is wrapped in
      `ProtectedRoute`. */
  datatype PageRoute = PageRoute(path: string, page: Page, guarded: bool)

  const PageRoutes: seq<PageRoute> := [
    PageRoute("/", Home, false),
    PageRoute("/courses", Courses, false),
    PageRoute("/about", About, false),
    PageRoute("/contact", Contact, false),
    PageRoute("/verify-certificate", VerifyCertificate, false),
    PageRoute("/admin/login", AdminLogin, false),
    PageRoute("/admin/signup", AdminSignup, false),
    PageRoute("/admin/dashboard", AdminDashboard, true),
    PageRoute("/admin/courses", ManageCourses, true),
    PageRoute("/admin/certificates", ManageCertificates, true)
  ]

  /** The pages that manage the academy's data. */
  predicate AdminPage(p: Page) {
    p == AdminDashboard || p == ManageCourses || p == ManageCertificates
  }

  /** What a path renders: nothing for an unknown path, the page itself for
      an unguarded route, and the guard's decision over the shared session
      state for a guarded one. */
  datatype Screen = Blank | Show(page: Page) | Guarded(page: Page, outcome: ProtectedRoute.Outcome)

  /** The route declared for a path, if any. */
  function Lookup(routes: seq<PageRoute>, path: string): (r: Option<PageRoute>)
    ensures r.Some? ==> r.value in routes && r.value.path == path
    ensures r.None? ==> forall i :: 0 <= i < |routes| ==> routes[i].path != path
    decreases |routes|
  {
    if routes == [] then None
    else if routes[0].path == path then Some(routes[0])
    else Lookup(routes[1..], path)
  }

  /** What the router shows at `path` for the session state. */
  function Render(path: string, loading: bool, authenticated: bool): Screen {
    match Lookup(PageRoutes, path)
    case None => Blank
    case Some(route) =>
      if route.guarded then Guarded(route.page, ProtectedRoute.Guard(loading, authenticated, path))
      else Show(route.page)
  }

  /** Exactly the three admin pages are guarded, every path appears once,
      and sign-in, sign-up and the public pages are open. */
  lemma GuardedExactlyAdmin()
    ensures forall i :: 0 <= i < |PageRoutes| ==> (PageRoutes[i].guarded <==> AdminPage(PageRoutes[i].page))
    ensures forall i, j :: 0 <= i < j < |PageRoutes| ==> PageRoutes[i].path != PageRoutes[j].path
  {
  }

  /** An admin page is shown only to an authenticated session whose start-up
      check is over; otherwise it is the spinner or the redirect to sign-in. */
  lemma AdminPagesNeedSession(path: string, loading: bool, authenticated: bool)
    ensures var s := Render(path, loading, authenticated);
      && (s.Show? ==> !AdminPage(s.page))
      && (s.Guarded? ==> AdminPage(s.page))
      && (s.Guarded? ==> (s.outcome.Children? <==> !loading && authenticated))
  {
    GuardedExactlyAdmin();
  }
}

=== FILE: auth_context.dfy ===
/** The frontend's session state, `AuthProvider`: the signed-in account, its
    token and whether the start-up check is still running. React effects and
    awaited requests are modelled as separate transitions, each taking the
    server's reply as a parameter. */
module AuthContext {
  import opened Common
  import opened Crypto
  import opened BrowserState
  import AuthMiddleware
  import AuthController

  /** What `login` resolves to. */
  datatype LoginResult = LoginResult(success: bool, message: Option<string>)

  const LoginFailed: string := "Login failed"
  const ConnectionRefused: string := "ECONNREFUSED"

  /** JavaScript truthiness of the token state. */
  predicate HasToken(token: Option<string>) {
    token.Some? && token.value != ""
  }

  /** The default `Authorization` header the header effect leaves for a token
      state: `Bearer <token>` for a truthy token, none otherwise. */
  function HeaderFor(token: Option<string>): (h: Option<string>)
    ensures h.Some? <==> HasToken(token)
    ensures h.Some? ==> h.value == AuthMiddleware.BearerPrefix + token.value
  {
    if HasToken(token) then Some(AuthMiddleware.BearerPrefix + token.value) else None
  }

  /** The header the frontend sends is judged by the backend's gate on exactly
      the stored token: it passes precisely when a token is held and the
      server verifies it, and no token means the gate's "no token" answer. */
  lemma HeaderForAuthorizes(token: Option<string>, verify: Verifier)
    ensures AuthMiddleware.Authorize(HeaderFor(token), verify).Accept? <==> HasToken(token) && verify(token.value).Some?
    ensures AuthMiddleware.Authorize(HeaderFor(token), verify).Accept? ==>
      AuthMiddleware.Authorize(HeaderFor(token), verify).user == verify(token.value).value
    ensures !HasToken(token) ==>
      AuthMiddleware.Authorize(HeaderFor(token), verify) == AuthMiddleware.Reject(401, AuthMiddleware.NoTokenMessage)
  {
    if HasToken(token) {
      AuthMiddleware.BearerRoundTrip(token.value, verify);
    }
  }

  /** Whether a failed `/me` check ends the session: 401, 404, or a refused
      connection. Any other failure keeps the current state. */
  predicate EndsSession<T>(reply: Reply<T>) {
    || (reply.HttpError? && (reply.status == 401 || reply.status == 404))
    || (reply.NetworkError? && reply.code == ConnectionRefused)
  }

  /** The message a failed login shows: the server's own, unless absent or
      empty. */
  function FailureMessage<T>(reply: Reply<T>): (m: string)
    ensures m != ""
    ensures reply.HttpError? && reply.message.Some? && reply.message.value != "" ==> m == reply.message.value
    ensures reply.NetworkError? || (reply.HttpError? && (reply.message.None? || reply.message.value == "")) ==> m == LoginFailed
  {
    if reply.HttpError? && reply.message.Some? && reply.message.value != "" then reply.message.value else LoginFailed
  }

  class AuthProvider {
    var user: Option<AuthController.AdminView>
    var token: Option<string>
    var loading: bool
    const browser: Browser

    /** The first render: no user, still loading, and the token read back
        from storage. */
    constructor (browser: Browser)
      ensures this.browser == browser
      ensures user.None? && loading
      ensures token == if TokenKey in browser.storage then Some(browser.storage[TokenKey]) else None
    {
      this.browser := browser;
      user := None;
      loading := true;
      token := if TokenKey in browser.storage then Some(browser.storage[TokenKey]) else None;
    }

    /** `isAuthenticated`: exactly when a user is held. */
    predicate IsAuthenticated()
      reads this
    {
      user.Some?
    }

    /** `logout()`: forgets user and token, removes the stored token and the
        default header, and touches nothing else. */
    method Logout()
      modifies this, browser
      ensures user.None? && token.None? && loading == old(loading) && !IsAuthenticated()
      ensures browser.storage == old(browser.storage) - {TokenKey}
      ensures browser.headers == old(browser.headers) - {AuthorizationHeader}
      ensures browser.location == old(browser.location)
    {
      user := None;
      token := None;
      browser.storage := browser.storage - {TokenKey};
      browser.headers := browser.headers - {AuthorizationHeader};
    }

    /** The header effect, run whenever `token` changes: the default
        `Authorization` header becomes `HeaderFor(token)`; other headers are
        kept. */
    method SyncHeader()
      modifies browser
      ensures HeaderFor(token).Some? ==> browser.headers == old(browser.headers)[AuthorizationHeader := HeaderFor(token).value]
      ensures HeaderFor(token).None? ==> browser.headers == old(browser.headers) - {AuthorizationHeader}
      ensures AuthorizationHeader in browser.headers <==> HeaderFor(token).Some?
      ensures browser.storage == old(browser.storage) && browser.location == old(browser.location)
    {
      if HasToken(token) {
        browser.headers := browser.headers[AuthorizationHeader := AuthMiddleware.BearerPrefix + token.value];
      } else {
        browser.headers := browser.headers - {AuthorizationHeader};
      }
    }

    /** `checkAuth()` once `/me` has answered `reply`. With a token: a success
        makes its data the user; 401, 404 or a refused connection log out;
        any other failure keeps the state. Without a token nothing but
        `loading` changes. It always ends with `loading` false. */
    method CheckAuth(reply: Reply<AuthController.AdminView>)
      modifies this, browser
      ensures !loading
      ensures !HasToken(old(token)) ==>
        user == old(user) && token == old(token) && browser.storage == old(browser.storage)
        && browser.headers == old(browser.headers)
      ensures HasToken(old(token)) && reply.Ok? ==>
        user == Some(reply.data) && token == old(token) && browser.storage == old(browser.storage)
        && browser.headers == old(browser.headers)
      ensures HasToken(old(token)) && EndsSession(reply) ==>
        user.None? && token.None? && browser.storage == old(browser.storage) - {TokenKey}
        && browser.headers == old(browser.headers) - {AuthorizationHeader}
      ensures HasToken(old(token)) && !reply.Ok? && !EndsSession(reply) ==>
        user == old(user) && token == old(token) && browser.storage == old(browser.storage)
        && browser.headers == old(browser.headers)
      ensures browser.location == old(browser.location)
    {
      if HasToken(token) {
        match reply
        case Ok(data) =>
          user := Some(data);
        case _ =>
          if EndsSession(reply) {
            Logout();
          }
      }
      loading := false;
    }

    /** `login(email, password)` once the server has answered `reply`. A
        success holds the returned account and token and stores the token; a
        failure changes nothing and reports the server's message or
        "Login failed". */
    method Login(reply: Reply<AuthController.Session>) returns (result: LoginResult)
      modifies this, browser
      ensures result.success <==> reply.Ok?
      ensures reply.Ok? ==>
        && user == Some(reply.data.user) && token == Some(reply.data.token) && loading == old(loading)
        && browser.storage == old(browser.storage)[TokenKey := reply.data.token]
        && browser.headers == old(browser.headers) && result.message.None?
      ensures !reply.Ok? ==>
        && user == old(user) && token == old(token) && loading == old(loading)
        && browser.storage == old(browser.storage) && browser.headers == old(browser.headers)
        && result.message == Some(FailureMessage(reply))
      ensures browser.location == old(browser.location)
    {
      match reply
      case Ok(session) =>
        user := Some(session.user);
        token := Some(session.token);
        browser.storage := browser.storage[TokenKey := session.token];
        result := LoginResult(true, None);
      case _ =>
        result := LoginResult(false, Some(FailureMessage(reply)));
    }
  }

  /** A successful sign-in followed by the header effect: the account is
      authenticated, the token is stored, and every later request carries the
      header the backend's gate judges on exactly that token. */
  method SignIn(auth: AuthProvider, session: AuthController.Session) returns (result: LoginResult)
    modifies auth, auth.browser
    ensures result.success && auth.IsAuthenticated() && auth.token == Some(session.token)
    ensures auth.browser.storage == old(auth.browser.storage)[TokenKey := session.token]
    ensures session.token != "" ==>
      auth.browser.headers == old(auth.browser.headers)[AuthorizationHeader := AuthMiddleware.BearerPrefix + session.token]
  {
    result := auth.Login(Ok(session));
    auth.SyncHeader();
  }
}

=== FILE: auth_controller.dfy ===
/** The authentication handlers over the `admin_users` table: login, logout,
    the current-user lookup and the creation of an administrator. Emails are
    stored lower-cased and looked up lower-cased; passwords are only ever
    stored as bcrypt hashes. */
module AuthController {
  import opened Common
  import opened Crypto
  import Table

  /** A row of `admin_users`. */
  datatype AdminRow = AdminRow(id: nat, email: string, passwordHash: string, createdAt: nat, updatedAt: nat)

  /** The account as handed to clients: the row without its password hash,
      i.e. `{id, email, created_at, updated_at}`. */
  datatype AdminView = AdminView(id: nat, email: string, createdAt: nat, updatedAt: nat)

  /** The columns `select('id, email, created_at')` returns after an insert. */
  datatype NewAdmin = NewAdmin(id: nat, email: string, createdAt: nat)

  /** The `data` of a successful login: the account and its signed token. */
  datatype Session = Session(user: AdminView, token: string)

  const CredentialsRequired: string := "Email and password are required"
  const InvalidCredentials: string := "Invalid credentials"
  const LoginSuccessful: string := "Login successful"
  const LogoutSuccessful: string := "Logout successful"
  const UserNotFound: string := "User not found"
  const AdminExists: string := "Admin user already exists"
  const CreateFailed: string := "Failed to create admin user"
  const AdminCreated: string := "Admin user created successfully"

  function AdminId(a: AdminRow): int { a.id }
  function EmailOf(a: AdminRow): string { a.email }

  function View(a: AdminRow): (v: AdminView)
    ensures v.id == a.id && v.email == a.email && v.createdAt == a.createdAt && v.updatedAt == a.updatedAt
  {
    AdminView(a.id, a.email, a.createdAt, a.updatedAt)
  }

  /** `.eq('email', email).single()`. */
  function FindByEmail(rows: seq<AdminRow>, email: string): Option<AdminRow> {
    Table.Single(rows, Table.KeyIs(EmailOf, email))
  }

  /** `.eq('id', id).single()`. */
  function FindById(rows: seq<AdminRow>, id: nat): Option<AdminRow> {
    Table.Single(rows, Table.KeyIs(AdminId, id as int))
  }

  /** What the table keeps true: ids grow with insertion and stay below the
      store's counter, and emails are unique and lower-case. */
  predicate WellFormed(rows: seq<AdminRow>, serial: nat) {
    && Table.Increasing(rows, AdminId)
    && Table.Distinct(rows, EmailOf)
    && (forall i :: 0 <= i < |rows| ==> rows[i].id < serial && IsLower(rows[i].email))
  }

  /** The claims a token is signed with for this account. */
  function ClaimsFor(a: AdminRow): Claims {
    Claims(a.id, a.email, AdminRole)
  }

  /** `login`: 400 unless both fields are given; 401 "Invalid credentials"
      both when no account has the lower-cased email and when the password
      does not match; otherwise 200 with the account (no hash) and a token
      signed for 24 hours over `{id, email, role: 'admin'}`. */
  function Login(rows: seq<AdminRow>, email: Field, password: Field, compare: Checker, sign: Signer): (r: Response<Session>)
    ensures !Truthy(email) || !Truthy(password) ==> r == Failure(400, CredentialsRequired)
    ensures r.status == 200 <==>
      Truthy(email) && Truthy(password) && FindByEmail(rows, Lower(email.s)).Some?
      && compare(password.s, FindByEmail(rows, Lower(email.s)).value.passwordHash)
    ensures r.status == 200 ==>
      var a := FindByEmail(rows, Lower(email.s)).value;
      !r.error && r.data == Some(Session(View(a), sign(ClaimsFor(a), TokenLifetime)))
    ensures r.status != 200 && r.status != 400 ==> r == Failure(401, InvalidCredentials)
  {
    if !Truthy(email) || !Truthy(password) then Failure(400, CredentialsRequired)
    else match FindByEmail(rows, Lower(email.s))
      case None => Failure(401, InvalidCredentials)
      case Some(admin) =>
        if !compare(password.s, admin.passwordHash) then Failure(401, InvalidCredentials)
        else
          var token := sign(ClaimsFor(admin), TokenLifetime);
          Response(200, false, Some(LoginSuccessful), Some(Session(View(admin), token)))
  }

  /** Any spelling of a stored email that lower-cases to it logs in to that
      account exactly when the password matches its hash, and the token is
      signed for that account's id and stored (lower-case) email. */
  lemma AnyCasingLogsIn(rows: seq<AdminRow>, serial: nat, i: nat, email: string, password: string,
                        compare: Checker, sign: Signer)
    requires WellFormed(rows, serial)
    requires i < |rows| && email != "" && password != ""
    requires Lower(email) == Lower(rows[i].email)
    ensures var r := Login(rows, Text(email), Text(password), compare, sign);
      && (r.status == 200 <==> compare(password, rows[i].passwordHash))
      && (r.status == 200 ==> r.data == Some(Session(View(rows[i]), sign(Claims(rows[i].id, rows[i].email, AdminRole), TokenLifetime))))
      && (r.status != 200 ==> r == Failure(401, InvalidCredentials))
  {
    LowerOfLower(rows[i].email);
    Table.SingleOnDistinct(rows, EmailOf, Lower(email));
  }

  /** The two ways credentials can be wrong produce one and the same answer,
      so a caller cannot tell an unknown email from a wrong password. */
  lemma LoginFailuresAlike(rows: seq<AdminRow>, serial: nat, i: nat, unknown: string, email: string,
                           password: string, compare: Checker, sign: Signer)
    requires WellFormed(rows, serial)
    requires unknown != "" && password != "" && email != ""
    requires forall j :: 0 <= j < |rows| ==> rows[j].email != Lower(unknown)
    requires i < |rows| && Lower(email) == rows[i].email && !compare(password, rows[i].passwordHash)
    ensures Login(rows, Text(unknown), Text(password), compare, sign)
         == Login(rows, Text(email), Text(password), compare, sign)
         == Failure(401, InvalidCredentials)
  {
    Table.SingleOnDistinct(rows, EmailOf, Lower(unknown));
    Table.SingleOnDistinct(rows, EmailOf, Lower(email));
  }

  /** `logout`: nothing is kept on the server, so it always answers 200. */
  function Logout(): (r: Response<()>)
    ensures r.status == 200 && !r.error && r.data.None? && r.message == Some(LogoutSuccessful)
  {
    Response(200, false, Some(LogoutSuccessful), None)
  }

  /** `getCurrentUser`: re-reads the account named by the token's id; 404 when
      it is gone, otherwise its id, email and timestamps. */
  function GetCurrentUser(rows: seq<AdminRow>, user: Claims): (r: Response<AdminView>)
    ensures r.status == 200 <==> FindById(rows, user.id).Some?
    ensures r.status == 200 ==> !r.error && r.data == Some(View(FindById(rows, user.id).value))
    ensures r.status != 200 ==> r == Failure(404, UserNotFound)
  {
    match FindById(rows, user.id)
    case None => Failure(404, UserNotFound)
    case Some(admin) => Response(200, false, None, Some(View(admin)))
  }

  /** In a well-formed table the current user is found exactly when some row
      has the token's id, and what comes back is that row's public part. */
  lemma CurrentUserOfRow(rows: seq<AdminRow>, serial: nat, user: Claims)
    requires WellFormed(rows, serial)
    ensures GetCurrentUser(rows, user).status == 200 <==> exists i :: 0 <= i < |rows| && rows[i].id == user.id
    ensures forall i :: 0 <= i < |rows| && rows[i].id == user.id ==>
      GetCurrentUser(rows, user).data == Some(View(rows[i]))
  {
    Table.IncreasingIsDistinct(rows, AdminId);
    Table.SingleOnDistinct(rows, AdminId, user.id as int);
  }

  /** The `admin_users` table. Ids and creation times are issued by the store
      from `serial`, its insertion counter. */
  class AdminTable {
    var rows: seq<AdminRow>
    var serial: nat

    ghost predicate Valid()
      reads this
    {
      WellFormed(rows, serial)
    }

    constructor ()
      ensures Valid() && rows == [] && serial == 0
    {
      rows := [];
      serial := 0;
    }

    /** Appends one row stamped by the store; the email must already be
        lower-case and new. */
    method Insert(email: string, passwordHash: string) returns (row: AdminRow)
      requires Valid()
      requires IsLower(email) && forall j :: 0 <= j < |rows| ==> rows[j].email != email
      modifies this
      ensures Valid()
      ensures row == AdminRow(old(serial), email, passwordHash, old(serial), old(serial))
      ensures rows == old(rows) + [row] && serial == old(serial) + 1
    {
      row := AdminRow(serial, email, passwordHash, serial, serial);
      Table.AppendIncreasing(rows, row, AdminId);
      Table.AppendDistinct(rows, row, EmailOf);
      rows := rows + [row];
      serial := serial + 1;
    }

    /** `createAdminUser`: 400 when a field is missing or the lower-cased email
        is taken, 500 when the insert fails (the table is then unchanged);
        otherwise one new row with the lower-cased email and the cost-12 hash
        of the password, answered with 201. */
    method CreateAdminUser(email: Field, password: Field, hash: Hasher, insertFails: bool)
      returns (r: Response<NewAdmin>)
      requires Valid()
      modifies this
      ensures Valid()
      ensures r.status != 201 ==> rows == old(rows) && serial == old(serial)
      ensures !Truthy(email) || !Truthy(password) ==> r == Failure(400, CredentialsRequired)
      ensures Truthy(email) && Truthy(password) && (exists j :: 0 <= j < |old(rows)| && old(rows)[j].email == Lower(email.s))
        ==> r == Failure(400, AdminExists)
      ensures Truthy(email) && Truthy(password) && (forall j :: 0 <= j < |old(rows)| ==> old(rows)[j].email != Lower(email.s))
        ==> r == (if insertFails then Failure(500, CreateFailed)
                  else Response(201, false, Some(AdminCreated), Some(NewAdmin(old(serial), Lower(email.s), old(serial)))))
      ensures r.status == 201 ==>
        rows == old(rows) + [AdminRow(old(serial), Lower(email.s), hash(password.s, SaltRounds), old(serial), old(serial))]
        && serial == old(serial) + 1
    {
      if !Truthy(email) || !Truthy(password) {
        return Failure(400, CredentialsRequired);
      }
      var address := Lower(email.s);
      Table.SingleOnDistinct(rows, EmailOf, address);
      var existing := FindByEmail(rows, address);
      if existing.Some? {
        return Failure(400, AdminExists);
      }
      var passwordHash := hash(password.s, SaltRounds);
      if insertFails {
        return Failure(500, CreateFailed);
      }
      LowerIsLower(email.s);
      var row := Insert(address, passwordHash);
      r := Response(201, false, Some(AdminCreated), Some(NewAdmin(row.id, row.email, row.createdAt)));
    }
  }
}

=== FILE: auth_middleware.dfy ===
/** The bearer-token gate put in front of the protected routes: it reads the
    `Authorization` header, strips the `Bearer ` prefix, verifies the token,
    and either records the claims on the request and passes control on, or
    answers 401 itself. */
module AuthMiddleware {
  import opened Common
  import opened Crypto

  const BearerPrefix: string := "Bearer "
  const NoTokenMessage: string := "Access denied. No token provided."
  const InvalidTokenMessage: string := "Invalid token."

  /** What the gate decides for one request. */
  datatype Decision = Reject(status: nat, message: string) | Accept(user: Claims)

  /** `authHeader.substring(7)`: the token after the prefix. */
  function TokenOf(header: string): (t: string)
    requires StartsWith(header, BearerPrefix)
    ensures header == BearerPrefix + t
  {
    header[|BearerPrefix|..]
  }

  /** The header carries a non-empty token after the case-sensitive prefix. */
  predicate CarriesToken(header: Option<string>) {
    header.Some? && StartsWith(header.value, BearerPrefix) && TokenOf(header.value) != ""
  }

  /** The decision of `authMiddleware` for a request with this header. */
  function Authorize(header: Option<string>, verify: Verifier): (d: Decision)
    ensures d.Accept? <==> CarriesToken(header) && verify(TokenOf(header.value)).Some?
    ensures d.Accept? ==> d.user == verify(TokenOf(header.value)).value
    ensures d.Reject? ==> d.status == 401
    ensures !CarriesToken(header) ==> d == Reject(401, NoTokenMessage)
    ensures CarriesToken(header) && d.Reject? ==> d.message == InvalidTokenMessage
  {
    if header.None? || !StartsWith(header.value, BearerPrefix) then
      Reject(401, NoTokenMessage)
    else
      var token := TokenOf(header.value);
      if token == "" then Reject(401, NoTokenMessage)
      else match verify(token)
        case None => Reject(401, InvalidTokenMessage)
        case Some(claims) => Accept(claims)
  }

  /** A header written as `Bearer <token>` is judged on exactly that token:
      the empty token counts as no token, any other is accepted precisely when
      it verifies. */
  lemma {:induction false} BearerRoundTrip(token: string, verify: Verifier)
    ensures Authorize(Some(BearerPrefix + token), verify) ==
      if token == "" then Reject(401, NoTokenMessage)
      else if verify(token).Some? then Accept(verify(token).value)
      else Reject(401, InvalidTokenMessage)
  {
    var h := BearerPrefix + token;
    assert StartsWith(h, BearerPrefix) by { assert h[..|BearerPrefix|] == BearerPrefix; }
    assert TokenOf(h) == token;
  }

  /** The request and response objects as far as the gate touches them. */
  class Exchange {
    /** `req.user`. */
    var user: Option<Claims>
    /** The status and body written with `res.status(..).json(..)`, if any. */
    var response: Option<Response<Claims>>
    /** How many times `next()` has been called. */
    var nextCalls: nat

    constructor ()
      ensures user.None? && response.None? && nextCalls == 0
    {
      user := None;
      response := None;
      nextCalls := 0;
    }
  }

  /** `authMiddleware(req, res, next)`: on acceptance the claims become
      `req.user`, `next` runs once and nothing is written; otherwise the error
      response is written and neither `req.user` nor `next` is touched. */
  method RunAuthMiddleware(ex: Exchange, header: Option<string>, verify: Verifier)
    modifies ex
    ensures Authorize(header, verify).Accept? ==>
      ex.user == Some(Authorize(header, verify).user) && ex.nextCalls == old(ex.nextCalls) + 1
      && ex.response == old(ex.response)
    ensures Authorize(header, verify).Reject? ==>
      ex.user == old(ex.user) && ex.nextCalls == old(ex.nextCalls)
      && ex.response == Some(Failure(401, Authorize(header, verify).message))
  {
    var decision := Authorize(header, verify);
    match decision
    case Accept(claims) =>
      ex.user := Some(claims);
      ex.nextCalls := ex.nextCalls + 1;
    case Reject(status, message) =>
      ex.response := Some(Failure(status, message));
  }
}

=== FILE: auth_utils.dfy ===
/** The session helpers of the frontend: read the stored token, check that it
    has the three-part shape of a JSON Web Token, clear it, and force a
    return to the sign-in page. */
module AuthUtils {
  import opened Common
  import opened BrowserState

  /** `s.split(sep)` for a one-character separator: the maximal runs between
      separators, in order, including empty ones. */
  function Split(s: string, sep: char): (parts: seq<string>)
    ensures |parts| >= 1
    ensures forall k :: 0 <= k < |parts| ==> sep !in parts[k]
    decreases |s|
  {
    if s == [] then [""]
    else
      var rest := Split(s[1..], sep);
      if s[0] == sep then [""] + rest
      else [[s[0]] + rest[0]] + rest[1..]
  }

  /** `parts.join(sep)`. */
  function Join(parts: seq<string>, sep: char): string
    requires |parts| >= 1
    decreases |parts|
  {
    if |parts| == 1 then parts[0] else parts[0] + [sep] + Join(parts[1..], sep)
  }

  /** How many times `c` occurs in `s`. */
  function Occurrences(s: string, c: char): nat
    decreases |s|
  {
    if s == [] then 0 else (if s[0] == c then 1 else 0) + Occurrences(s[1..], c)
  }

  /** Splitting yields one more part than there are separators. */
  lemma {:induction false} SplitCount(s: string, sep: char)
    ensures |Split(s, sep)| == Occurrences(s, sep) + 1
    decreases |s|
  {
    if s != [] {
      SplitCount(s[1..], sep);
    }
  }

  /** Joining the parts back with the separator gives the string again, so
      nothing is lost by splitting. */
  lemma {:induction false} SplitJoin(s: string, sep: char)
    ensures Join(Split(s, sep), sep) == s
    decreases |s|
  {
    if s != [] {
      SplitJoin(s[1..], sep);
      var rest := Split(s[1..], sep);
      if s[0] == sep {
        assert ([""] + rest)[1..] == rest;
        assert s == [sep] + s[1..];
      } else {
        var parts := [[s[0]] + rest[0]] + rest[1..];
        if |rest| == 1 {
          assert s == [s[0]] + s[1..];
        } else {
          assert parts[1..] == rest[1..];
          assert Join(rest, sep) == rest[0] + [sep] + Join(rest[1..], sep);
          assert s == [s[0]] + s[1..];
        }
      }
    }
  }

  /** `getAuthData().token`: the stored token, if any; storage is only read. */
  function GetAuthData(storage: map<string, string>): (token: Option<string>)
    ensures token.Some? <==> TokenKey in storage
    ensures token.Some? ==> token.value == storage[TokenKey]
  {
    if TokenKey in storage then Some(storage[TokenKey]) else None
  }

  /** `checkAuthStatus()`: false with no token or an empty one, otherwise
      whether the token splits on '.' into exactly three parts. */
  function CheckAuthStatus(storage: map<string, string>): (ok: bool)
  {
    match GetAuthData(storage)
    case None => false
    case Some(token) => token != "" && |Split(token, '.')| == 3
  }

  /** The check is about the token's shape only: it holds exactly when a
      non-empty token with exactly two dots is stored, whatever its
      signature or expiry. */
  lemma CheckAuthStatusShape(storage: map<string, string>)
    ensures CheckAuthStatus(storage) <==>
      TokenKey in storage && storage[TokenKey] != "" && Occurrences(storage[TokenKey], '.') == 2
  {
    if TokenKey in storage {
      SplitCount(storage[TokenKey], '.');
    }
  }

  /** `clearAuthData()`: removes the token and no other key. */
  method ClearAuthData(b: Browser)
    modifies b
    ensures b.storage == old(b.storage) - {TokenKey}
    ensures b.location == old(b.location) && b.headers == old(b.headers)
  {
    b.storage := b.storage - {TokenKey};
  }

  /** `forceLogout()`: clears the token, then navigates to the sign-in page. */
  method ForceLogout(b: Browser)
    modifies b
    ensures b.storage == old(b.storage) - {TokenKey} && TokenKey !in b.storage
    ensures b.location == LoginPath && b.headers == old(b.headers)
    ensures !CheckAuthStatus(b.storage)
  {
    ClearAuthData(b);
    b.location := LoginPath;
  }
}

=== FILE: browser.dfy ===
/** The parts of the browser the single-page frontend reads and writes:
    `localStorage`, the current location, and the default headers axios adds
    to every request; and how an axios request can end. */
module BrowserState {
  import opened Common

  /** How an axios request ends: a 2xx body, an HTTP error with the server's
      `message` if it sent one, or a failure with no response (e.g. the
      `ECONNREFUSED` code). */
  datatype Reply<T> = Ok(data: T) | HttpError(status: nat, message: Option<string>) | NetworkError(code: string)

  /** The `localStorage` key the session token is kept under. */
  const TokenKey: string := "adminToken"
  /** The default request header the session token travels in. */
  const AuthorizationHeader: string := "Authorization"
  /** The admin sign-in page. */
  const LoginPath: string := "/admin/login"

  class Browser {
    /** `localStorage`, key to value. */
    var storage: map<string, string>
    /** `window.location.href`. */
    var location: string
    /** `axios.defaults.headers.common`. */
    var headers: map<string, string>

    constructor (storage: map<string, string>, location: string)
      ensures this.storage == storage && this.location == location && headers == map[]
    {
      this.storage := storage;
      this.location := location;
      headers := map[];
    }
  }
}

=== FILE: cert_controller.dfy ===
/** The certificate handlers over the `certificates` table: the public lookup
    by certificate number, and the admin list, create and delete. */
module CertController {
  import opened Common
  import Table

  /** A calendar date, as `new Date(..)` parses it (month 1 to 12). */
  datatype Date = Date(year: int, month: int, day: int)

  /** A row of `certificates`. The status is whatever the creator sent,
      `'Valid'` when it sent none. */
  datatype Certificate = Certificate(id: nat, studentName: string, courseName: string, issueDate: Date,
                                     certNumber: string, status: Field, createdAt: nat)

  /** The body of a create request. */
  datatype CertInput = CertInput(studentName: Field, courseName: Field, issueDate: Field,
                                 certNumber: Field, status: Field)

  /** `new Date(text)` followed by taking the date part of its ISO form; `None`
      for an invalid date. */
  type DateParser = string -> Option<Date>

  /** The body of a successful verification: the record and its `valid` flag. */
  datatype VerifyBody = VerifyBody(certificate: Certificate, valid: bool)

  /** The body of a listing: the rows and their `count`. */
  datatype Listing = Listing(rows: seq<Certificate>, count: nat)

  const ValidStatus: string := "Valid"
  const NumberRequired: string := "Certificate number is required"
  const NotFoundOrInvalid: string := "Certificate not found or invalid"
  const VerifyFailed: string := "Failed to verify certificate"
  const FetchFailed: string := "Failed to fetch certificates"
  const FieldsRequired: string := "Student name, course name, issue date, and certificate number are required"
  const NumberExists: string := "Certificate number already exists"
  const InvalidDate: string := "Invalid issue date format"
  const CreateFailed: string := "Failed to create certificate"
  const Created: string := "Certificate created successfully"
  const NotFound: string := "Certificate not found"
  const DeleteFailed: string := "Failed to delete certificate"
  const Deleted: string := "Certificate deleted successfully"

  function CertId(c: Certificate): int { c.id }
  function CreatedAt(c: Certificate): int { c.createdAt }
  function NumberOf(c: Certificate): string { c.certNumber }

  /** `.eq('cert_number', number).single()`. */
  function FindByNumber(rows: seq<Certificate>, number: string): Option<Certificate> {
    Table.Single(rows, Table.KeyIs(NumberOf, number))
  }

  /** `.eq('id', id).single()`. */
  function FindById(rows: seq<Certificate>, id: nat): Option<Certificate> {
    Table.Single(rows, Table.KeyIs(CertId, id as int))
  }

  /** What the table keeps true: ids and creation times grow with insertion
      and stay below the store's counter, and certificate numbers are unique. */
  predicate WellFormed(rows: seq<Certificate>, serial: nat) {
    && Table.Increasing(rows, CertId)
    && Table.Increasing(rows, CreatedAt)
    && Table.Distinct(rows, NumberOf)
    && (forall i :: 0 <= i < |rows| ==> rows[i].id < serial && rows[i].createdAt < serial)
  }

  /** A certificate verifies exactly when its status is `'Valid'`. */
  predicate IsValid(c: Certificate) {
    c.status == Text(ValidStatus)
  }

  /** `verifyCertificate`: 400 for an empty number, 500 when the store fails,
      404 when no single row has the number; a found record is answered with
      200 and `error: false` whatever its status, `valid` telling whether the
      status is `'Valid'`. */
  function VerifyCertificate(rows: seq<Certificate>, number: string, storeFails: bool): (r: Response<VerifyBody>)
    ensures number == "" ==> r == Failure(400, NumberRequired)
    ensures number != "" && storeFails ==> r == Failure(500, VerifyFailed)
    ensures number != "" && !storeFails && FindByNumber(rows, number).None? ==> r == Failure(404, NotFoundOrInvalid)
    ensures r.status == 200 <==> number != "" && !storeFails && FindByNumber(rows, number).Some?
    ensures r.status == 200 ==>
      !r.error && r.data.Some? && r.data.value.certificate == FindByNumber(rows, number).value
      && (r.data.value.valid <==> IsValid(r.data.value.certificate))
  {
    if number == "" then Failure(400, NumberRequired)
    else if storeFails then Failure(500, VerifyFailed)
    else match FindByNumber(rows, number)
      case None => Failure(404, NotFoundOrInvalid)
      case Some(certificate) =>
        if certificate.status != Text(ValidStatus) then
          Response(200, false, Some("Certificate found but status is not valid"), Some(VerifyBody(certificate, false)))
        else
          Response(200, false, Some("Certificate verified successfully"), Some(VerifyBody(certificate, true)))
  }

  /** In a well-formed table a number verifies (status 200) exactly when some
      row carries it; the answer is that row, flagged valid exactly when its
      status is `'Valid'`, so an expired or revoked record is still returned. */
  lemma VerifyFindsRow(rows: seq<Certificate>, serial: nat, number: string)
    requires WellFormed(rows, serial) && number != ""
    ensures VerifyCertificate(rows, number, false).status == 200 <==> exists i :: 0 <= i < |rows| && rows[i].certNumber == number
    ensures forall i :: 0 <= i < |rows| && rows[i].certNumber == number ==>
      VerifyCertificate(rows, number, false).data == Some(VerifyBody(rows[i], IsValid(rows[i])))
  {
    Table.SingleOnDistinct(rows, NumberOf, number);
  }

  /** `getAllCertificates`: 500 when the store fails, otherwise every row
      ordered by `created_at` descending, with `count` the number of rows. */
  function GetAllCertificates(rows: seq<Certificate>, storeFails: bool): (r: Response<Listing>)
    ensures storeFails ==> r == Failure(500, FetchFailed)
    ensures !storeFails ==> r.status == 200 && !r.error && r.data.Some?
    ensures r.data.Some? ==>
      r.data.value.count == |r.data.value.rows| == |rows| && multiset(r.data.value.rows) == multiset(rows)
  {
    if storeFails then Failure(500, FetchFailed)
    else
      Table.ReversePermutes(rows);
      var listed := Table.Reverse(rows);
      Response(200, false, None, Some(Listing(listed, |listed|)))
  }

  /** The listing of a well-formed table is newest first. */
  lemma ListingNewestFirst(rows: seq<Certificate>, serial: nat)
    requires WellFormed(rows, serial)
    ensures Table.Decreasing(GetAllCertificates(rows, false).data.value.rows, CreatedAt)
  {
    Table.ReverseDecreasing(rows, CreatedAt);
  }

  /** Whether a create request lacks one of the four required fields. */
  predicate MissingField(input: CertInput) {
    !Truthy(input.studentName) || !Truthy(input.courseName) || !Truthy(input.issueDate) || !Truthy(input.certNumber)
  }

  /** The stored status: the destructuring default `'Valid'` applies only when
      the field is absent. */
  function StatusOf(input: CertInput): (s: Field)
    ensures input.status.Undefined? ==> s == Text(ValidStatus)
    ensures !input.status.Undefined? ==> s == input.status
  {
    if input.status.Undefined? then Text(ValidStatus) else input.status
  }

  /** `.delete().eq('id', id)` on a well-formed table removes exactly row
      `j`, the one with that id, and the table stays well formed. */
  lemma RemoveRow(rows: seq<Certificate>, serial: nat, j: nat)
    requires WellFormed(rows, serial) && j < |rows|
    ensures Table.Select(rows, Table.KeyIsNot(CertId, rows[j].id)) == rows[..j] + rows[j + 1..]
    ensures WellFormed(rows[..j] + rows[j + 1..], serial)
  {
    var keep := Table.KeyIsNot(CertId, rows[j].id);
    Table.IncreasingIsDistinct(rows, CertId);
    Table.DeleteUnique(rows, CertId, rows[j].id, j);
    Table.SelectIncreasing(rows, keep, CertId);
    Table.SelectIncreasing(rows, keep, CreatedAt);
    Table.SelectDistinct(rows, keep, NumberOf);
    var rest := rows[..j] + rows[j + 1..];
    forall i | 0 <= i < |rest| ensures rest[i].id < serial && rest[i].createdAt < serial {
      if i < j {
        assert rest[i] == rows[i];
      } else {
        assert rest[i] == rows[i + 1];
      }
    }
  }

  /** The `certificates` table. Ids and creation times are issued by the store
      from `serial`, its insertion counter, so later rows are newer. */
  class CertificateTable {
    var rows: seq<Certificate>
    var serial: nat

    ghost predicate Valid()
      reads this
    {
      WellFormed(rows, serial)
    }

    constructor ()
      ensures Valid() && rows == [] && serial == 0
    {
      rows := [];
      serial := 0;
    }

    /** `createCertificate`. Checks, in order: the four required fields (400),
        an existing row with the number (400), a parsable issue date (400),
        the insert (500). Any failure leaves the table unchanged; success
        appends exactly one row holding the date part of the parsed date and
        the defaulted status, and answers 201 with it. */
    method CreateCertificate(input: CertInput, parse: DateParser, insertFails: bool)
      returns (r: Response<Certificate>)
      requires Valid()
      modifies this
      ensures Valid()
      ensures r.status != 201 ==> rows == old(rows) && serial == old(serial)
      ensures MissingField(input) ==> r == Failure(400, FieldsRequired)
      ensures !MissingField(input) && (exists j :: 0 <= j < |old(rows)| && old(rows)[j].certNumber == input.certNumber.s)
        ==> r == Failure(400, NumberExists)
      ensures !MissingField(input) && (forall j :: 0 <= j < |old(rows)| ==> old(rows)[j].certNumber != input.certNumber.s)
        ==> r == if parse(input.issueDate.s).None? then Failure(400, InvalidDate)
                 else if insertFails then Failure(500, CreateFailed)
                 else Response(201, false, Some(Created), Some(Certificate(old(serial), input.studentName.s,
                        input.courseName.s, parse(input.issueDate.s).value, input.certNumber.s, StatusOf(input), old(serial))))
      ensures r.status == 201 ==> r.data.Some? && rows == old(rows) + [r.data.value] && serial == old(serial) + 1
    {
      if MissingField(input) {
        return Failure(400, FieldsRequired);
      }
      var number := input.certNumber.s;
      Table.SingleOnDistinct(rows, NumberOf, number);
      var existing := FindByNumber(rows, number);
      if existing.Some? {
        return Failure(400, NumberExists);
      }
      var parsed := parse(input.issueDate.s);
      if parsed.None? {
        return Failure(400, InvalidDate);
      }
      if insertFails {
        return Failure(500, CreateFailed);
      }
      var row := Certificate(serial, input.studentName.s, input.courseName.s, parsed.value, number, StatusOf(input), serial);
      Table.AppendIncreasing(rows, row, CertId);
      Table.AppendIncreasing(rows, row, CreatedAt);
      Table.AppendDistinct(rows, row, NumberOf);
      rows := rows + [row];
      serial := serial + 1;
      r := Response(201, false, Some(Created), Some(row));
    }

    /** `deleteCertificate`: 404 and no change when no row has the id, 500 and
        no change when the delete fails; otherwise exactly that row is removed,
        every other row kept in order, and 200 is answered. */
    method DeleteCertificate(id: nat, deleteFails: bool) returns (r: Response<()>)
      requires Valid()
      modifies this
      ensures Valid() && serial == old(serial)
      ensures (forall j :: 0 <= j < |old(rows)| ==> old(rows)[j].id != id) ==> r == Failure(404, NotFound)
      ensures (exists j :: 0 <= j < |old(rows)| && old(rows)[j].id == id) && deleteFails ==> r == Failure(500, DeleteFailed)
      ensures r.status != 200 ==> rows == old(rows)
      ensures r.status == 200 <==> !deleteFails && exists j :: 0 <= j < |old(rows)| && old(rows)[j].id == id
      ensures r.status == 200 ==> !r.error
      ensures r.status == 200 ==>
        exists j :: 0 <= j < |old(rows)| && old(rows)[j].id == id && rows == old(rows)[..j] + old(rows)[j + 1..]
    {
      Table.IncreasingIsDistinct(rows, CertId);
      Table.SingleOnDistinct(rows, CertId, id as int);
      var existing := FindById(rows, id);
      if existing.None? {
        return Failure(404, NotFound);
      }
      if deleteFails {
        return Failure(500, DeleteFailed);
      }
      var j :| 0 <= j < |rows| && rows[j].id == id;
      RemoveRow(rows, serial, j);
      rows := rows[..j] + rows[j + 1..];
      r := Response(200, false, Some(Deleted), None);
    }
  }
}

=== FILE: common.dfy ===
/** Values shared by the backend and the frontend: optional values, request-body
    fields with JavaScript truthiness, the JSON response envelope, and the
    string helpers (lower-casing, trimming, prefix test) the handlers rely on. */
module Common {

  datatype Option<+T> = None | Some(value: T)

  /** A scalar field of a JSON request body as a handler sees it after
      destructuring: missing (`undefined`), `null`, or a string. */
  datatype Field = Undefined | Null | Text(s: string)

  /** JavaScript truthiness of a body field: only a non-empty string is truthy. */
  predicate Truthy(f: Field) {
    f.Text? && f.s != ""
  }

  /** The response envelope `{error, message?, data?}` with its HTTP status. */
  datatype Response<T> = Response(status: nat, error: bool, message: Option<string>, data: Option<T>)

  /** An error response: `res.status(status).json({error: true, message})`. */
  function Failure<T>(status: nat, message: string): (r: Response<T>)
    ensures r.error && r.status == status && r.data.None? && r.message == Some(message)
  {
    Response(status, true, Some(message), None)
  }

  // ---------------------------------------------------------------------
  // Strings

  function LowerChar(c: char): char {
    if 'A' <= c <= 'Z' then (c as int + 32) as char else c
  }

  /** `String.prototype.toLowerCase` on the ASCII letters. */
  function Lower(s: string): (r: string)
    ensures |r| == |s|
    ensures forall i :: 0 <= i < |s| ==> r[i] == LowerChar(s[i])
  {
    if s == [] then [] else [LowerChar(s[0])] + Lower(s[1..])
  }

  predicate IsLower(s: string) {
    forall i :: 0 <= i < |s| ==> !('A' <= s[i] <= 'Z')
  }

  /** Lower-casing yields a lower-case string and is idempotent, so a value
      stored lower-cased is found again by lower-casing any of its spellings. */
  lemma LowerIsLower(s: string)
    ensures IsLower(Lower(s))
    ensures Lower(Lower(s)) == Lower(s)
  {
    var l := Lower(s);
    assert forall i :: 0 <= i < |l| ==> LowerChar(l[i]) == l[i];
    assert Lower(l) == l;
  }

  /** Lower-casing leaves a lower-case string alone. */
  lemma LowerOfLower(s: string)
    requires IsLower(s)
    ensures Lower(s) == s
  {
    assert forall i :: 0 <= i < |s| ==> LowerChar(s[i]) == s[i];
  }

  predicate StartsWith(s: string, prefix: string) {
    |prefix| <= |s| && s[..|prefix|] == prefix
  }

  /** The characters `String.prototype.trim` removes, restricted to ASCII. */
  predicate IsSpace(c: char) {
    c == ' ' || c == '\t' || c == '\n' || c == '\r' || c == '\U{000B}' || c == '\U{000C}'
  }

  predicate AllSpace(s: string) {
    forall i :: 0 <= i < |s| ==> IsSpace(s[i])
  }

  /** The index of the first non-space character at or after `i`, or `|s|`. */
  function SkipSpace(s: string, i: nat): (k: nat)
    requires i <= |s|
    ensures i <= k <= |s|
    ensures forall j :: i <= j < k ==> IsSpace(s[j])
    ensures k < |s| ==> !IsSpace(s[k])
    decreases |s| - i
  {
    if i == |s| || !IsSpace(s[i]) then i else SkipSpace(s, i + 1)
  }

  /** The end of `s[lo..j]` once its trailing white space is dropped. */
  function SkipSpaceBack(s: string, lo: nat, j: nat): (k: nat)
    requires lo <= j <= |s|
    ensures lo <= k <= j
    ensures forall m :: k <= m < j ==> IsSpace(s[m])
    ensures k > lo ==> !IsSpace(s[k - 1])
    decreases j
  {
    if j == lo || !IsSpace(s[j - 1]) then j else SkipSpaceBack(s, lo, j - 1)
  }

  /** `String.prototype.trim`: the string without leading and trailing white space. */
  function Trim(s: string): (r: string)
    ensures r == [] <==> AllSpace(s)
    ensures r == [] || (!IsSpace(r[0]) && !IsSpace(r[|r| - 1]))
    ensures exists lo :: 0 <= lo <= |s| - |r| && r == s[lo..lo + |r|]
                         && AllSpace(s[..lo]) && AllSpace(s[lo + |r|..])
  {
    var lo := SkipSpace(s, 0);
    var hi := SkipSpaceBack(s, lo, |s|);
    assert AllSpace(s[..lo]) && AllSpace(s[hi..]);
    assert lo < |s| ==> hi > lo;
    s[lo..hi]
  }

  // ---------------------------------------------------------------------
  // Decimal numerals

  function DigitChar(d: nat): char
    requires d < 10
  {
    ('0' as int + d) as char
  }

  predicate IsDigit(c: char) {
    '0' <= c <= '9'
  }

  function DigitValue(c: char): nat
    requires IsDigit(c)
  {
    c as int - '0' as int
  }

  /** `Number.prototype.toString()` for a non-negative integer. */
  function NatToString(n: nat): (r: string)
    ensures |r| >= 1
    ensures forall i :: 0 <= i < |r| ==> IsDigit(r[i])
    decreases n
  {
    if n < 10 then [DigitChar(n)] else NatToString(n / 10) + [DigitChar(n % 10)]
  }

  /** The number a string of decimal digits denotes. */
  function DigitsValue(s: string): nat
    requires forall i :: 0 <= i < |s| ==> IsDigit(s[i])
  {
    if s == [] then 0 else DigitsValue(s[..|s| - 1]) * 10 + DigitValue(s[|s| - 1])
  }

  /** Reading back a numeral gives the number it was written from. */
  lemma {:induction false} NatToStringRoundTrip(n: nat)
    ensures DigitsValue(NatToString(n)) == n
    decreases n
  {
    var r := NatToString(n);
    if n >= 10 {
      var q, d := n / 10, n % 10;
      NatToStringRoundTrip(q);
      assert r == NatToString(q) + [DigitChar(d)];
      assert r[..|r| - 1] == NatToString(q);
      assert DigitValue(r[|r| - 1]) == d;
      assert n == q * 10 + d;
    }
  }

  /** `String.prototype.padStart(width, '0')`. */
  function PadStart(s: string, width: nat): (r: string)
    ensures |r| == if |s| < width then width else |s|
    ensures r == Zeros(|r| - |s|) + s
  {
    if |s| < width then Zeros(width - |s|) + s else s
  }

  function Zeros(n: nat): (r: string)
    ensures |r| == n && forall i :: 0 <= i < n ==> r[i] == '0'
  {
    if n == 0 then [] else "0" + Zeros(n - 1)
  }

  /** Leading zeros do not change the value of a numeral. */
  lemma {:induction false} ZerosPrefixValue(k: nat, s: string)
    requires forall i :: 0 <= i < |s| ==> IsDigit(s[i])
    ensures forall i :: 0 <= i < |Zeros(k) + s| ==> IsDigit((Zeros(k) + s)[i])
    ensures DigitsValue(Zeros(k) + s) == DigitsValue(s)
    decreases |s|
  {
    var z := Zeros(k) + s;
    if s == [] {
      ZerosValue(k);
      assert z == Zeros(k);
    } else {
      ZerosPrefixValue(k, s[..|s| - 1]);
      assert z[..|z| - 1] == Zeros(k) + s[..|s| - 1];
    }
  }

  lemma {:induction false} ZerosValue(k: nat)
    ensures DigitsValue(Zeros(k)) == 0
  {
    if k > 0 {
      ZerosValue(k - 1);
      assert Zeros(k)[..k - 1] == Zeros(k - 1);
    }
  }
}

=== FILE: course_controller.dfy ===
/** The course handlers over the `courses` table: the public listing and
    lookup, and the admin create, update and delete. */
module CourseController {
  import opened Common
  import Table

  /** A row of `courses`. Text columns may hold `null` after an update that
      sends `null`; `fees` is the number `parseFloat` made of the submitted
      text, `None` where it was not a number. */
  datatype Course = Course(id: nat, title: Option<string>, description: Option<string>, duration: Option<string>,
                           fees: Option<real>, imageUrl: Option<string>, createdAt: nat, updatedAt: nat)

  /** The body of a create or update request. */
  datatype CourseInput = CourseInput(title: Field, description: Field, duration: Field, fees: Field, imageUrl: Field)

  /** `parseFloat(text)`: `None` for `NaN`. */
  type FeeParser = string -> Option<real>

  /** The body of a listing: the rows and their `count`. */
  datatype Listing = Listing(rows: seq<Course>, count: nat)

  const FetchAllFailed: string := "Failed to fetch courses"
  const NotFound: string := "Course not found"
  const FetchFailed: string := "Failed to fetch course"
  const FieldsRequired: string := "Title, description, duration, and fees are required"
  const CreateFailed: string := "Failed to create course"
  const Created: string := "Course created successfully"
  const UpdateFailed: string := "Failed to update course"
  const Updated: string := "Course updated successfully"
  const DeleteFailed: string := "Failed to delete course"
  const Deleted: string := "Course deleted successfully"

  function CourseId(c: Course): int { c.id }
  function CreatedAt(c: Course): int { c.createdAt }

  /** `.eq('id', id).single()`. */
  function FindById(rows: seq<Course>, id: nat): Option<Course> {
    Table.Single(rows, Table.KeyIs(CourseId, id as int))
  }

  /** Whether some row has this id. */
  predicate HasId(rows: seq<Course>, id: nat) {
    exists j :: 0 <= j < |rows| && rows[j].id == id
  }

  /** What the table keeps true: ids and creation times grow with insertion
      and stay below the store's counter. */
  predicate WellFormed(rows: seq<Course>, serial: nat) {
    && Table.Increasing(rows, CourseId)
    && Table.Increasing(rows, CreatedAt)
    && (forall i :: 0 <= i < |rows| ==> rows[i].id < serial && rows[i].createdAt < serial)
  }

  /** `getAllCourses`: 500 when the store fails, otherwise every row ordered by
      `created_at` descending, with `count` the number of rows. */
  function GetAllCourses(rows: seq<Course>, storeFails: bool): (r: Response<Listing>)
    ensures storeFails ==> r == Failure(500, FetchAllFailed)
    ensures !storeFails ==> r.status == 200 && !r.error && r.data.Some?
    ensures r.data.Some? ==>
      r.data.value.count == |r.data.value.rows| == |rows| && multiset(r.data.value.rows) == multiset(rows)
  {
    if storeFails then Failure(500, FetchAllFailed)
    else
      Table.ReversePermutes(rows);
      var listed := Table.Reverse(rows);
      Response(200, false, None, Some(Listing(listed, |listed|)))
  }

  /** The listing of a well-formed table is newest first. */
  lemma ListingNewestFirst(rows: seq<Course>, serial: nat)
    requires WellFormed(rows, serial)
    ensures Table.Decreasing(GetAllCourses(rows, false).data.value.rows, CreatedAt)
  {
    Table.ReverseDecreasing(rows, CreatedAt);
  }

  /** `getCourseById`: 500 when the store fails for another reason than a
      missing row, 404 "Course not found" when no row has the id, otherwise
      200 with the row. */
  function GetCourseById(rows: seq<Course>, id: nat, storeFails: bool): (r: Response<Course>)
    ensures storeFails ==> r == Failure(500, FetchFailed)
    ensures !storeFails && FindById(rows, id).None? ==> r == Failure(404, NotFound)
    ensures r.status == 200 <==> !storeFails && FindById(rows, id).Some?
    ensures r.status == 200 ==> !r.error && r.data.Some? && r.data.value.id == id && r.data.value in rows
  {
    if storeFails then Failure(500, FetchFailed)
    else match FindById(rows, id)
      case None => Failure(404, NotFound)
      case Some(course) =>
        assert Table.KeyIs(CourseId, id as int)(course);
        Response(200, false, None, Some(course))
  }

  /** In a well-formed table the lookup succeeds exactly when some row has the
      id, and answers that row. */
  lemma FetchFindsRow(rows: seq<Course>, serial: nat, id: nat)
    requires WellFormed(rows, serial)
    ensures GetCourseById(rows, id, false).status == 200 <==> HasId(rows, id)
    ensures forall i :: 0 <= i < |rows| && rows[i].id == id ==> GetCourseById(rows, id, false).data == Some(rows[i])
  {
    Table.IncreasingIsDistinct(rows, CourseId);
    Table.SingleOnDistinct(rows, CourseId, id as int);
  }

  /** Whether a create request lacks one of the four required fields. */
  predicate MissingField(input: CourseInput) {
    !Truthy(input.title) || !Truthy(input.description) || !Truthy(input.duration) || !Truthy(input.fees)
  }

  /** `image_url || null`: an absent or empty link is stored as `null`. */
  function ImageOf(f: Field): (v: Option<string>)
    ensures v.Some? <==> Truthy(f)
    ensures v.Some? ==> v.value == f.s
  {
    if Truthy(f) then Some(f.s) else None
  }

  /** How one column fares in `.update({..})`: an `undefined` value is dropped
      from the request and keeps the column, `null` clears it, a string
      replaces it. */
  function Assign(current: Option<string>, f: Field): Option<string> {
    match f
    case Undefined => current
    case Null => None
    case Text(s) => Some(s)
  }

  /** The row `updateCourse` writes: each sent column replaced, `fees` only
      when the sent value is truthy, `updated_at` stamped with the time of the
      request; the id and the creation time are kept. */
  function Merge(c: Course, input: CourseInput, parseFee: FeeParser, now: nat): (m: Course)
    ensures m.id == c.id && m.createdAt == c.createdAt && m.updatedAt == now
    ensures input.title.Undefined? ==> m.title == c.title
    ensures input.description.Undefined? ==> m.description == c.description
    ensures input.duration.Undefined? ==> m.duration == c.duration
    ensures input.imageUrl.Undefined? ==> m.imageUrl == c.imageUrl
    ensures input.title.Text? ==> m.title == Some(input.title.s)
    ensures input.title.Null? ==> m.title.None?
    ensures input.description.Text? ==> m.description == Some(input.description.s)
    ensures input.description.Null? ==> m.description.None?
    ensures input.duration.Text? ==> m.duration == Some(input.duration.s)
    ensures input.duration.Null? ==> m.duration.None?
    ensures input.imageUrl.Text? ==> m.imageUrl == Some(input.imageUrl.s)
    ensures input.imageUrl.Null? ==> m.imageUrl.None?
    ensures !Truthy(input.fees) ==> m.fees == c.fees
    ensures Truthy(input.fees) ==> m.fees == parseFee(input.fees.s)
  {
    Course(c.id, Assign(c.title, input.title), Assign(c.description, input.description),
           Assign(c.duration, input.duration),
           if Truthy(input.fees) then parseFee(input.fees.s) else c.fees,
           Assign(c.imageUrl, input.imageUrl), c.createdAt, now)
  }

  /** Sending the same update twice at the same time has the effect of
      sending it once. */
  lemma MergeIdempotent(c: Course, input: CourseInput, parseFee: FeeParser, now: nat)
    ensures Merge(Merge(c, input, parseFee, now), input, parseFee, now) == Merge(c, input, parseFee, now)
  {
  }

  /** An update that sends no field, or only a falsy `fees`, changes nothing
      but `updated_at`. */
  lemma EmptyUpdateStampsOnly(c: Course, parseFee: FeeParser, now: nat, fees: Field)
    requires !Truthy(fees)
    ensures Merge(c, CourseInput(Undefined, Undefined, Undefined, fees, Undefined), parseFee, now)
         == c.(updatedAt := now)
  {
  }

  /** The `courses` table. Ids and creation times are issued by the store from
      `serial`, its insertion counter, so later rows are newer. */
  class CourseTable {
    var rows: seq<Course>
    var serial: nat

    ghost predicate Valid()
      reads this
    {
      WellFormed(rows, serial)
    }

    constructor ()
      ensures Valid() && rows == [] && serial == 0
    {
      rows := [];
      serial := 0;
    }

    /** `createCourse`: 400 and no insert unless title, description, duration
        and fees are all truthy; 500 and no insert when the insert fails;
        otherwise one new row, with the parsed fee and a `null` image link
        for an absent or empty one, answered with 201. */
    method CreateCourse(input: CourseInput, parseFee: FeeParser, insertFails: bool) returns (r: Response<Course>)
      requires Valid()
      modifies this
      ensures Valid()
      ensures r.status != 201 ==> rows == old(rows) && serial == old(serial)
      ensures MissingField(input) ==> r == Failure(400, FieldsRequired)
      ensures !MissingField(input) && insertFails ==> r == Failure(500, CreateFailed)
      ensures r.status == 201 <==> !MissingField(input) && !insertFails
      ensures r.status == 201 ==>
        && !r.error && r.data.Some? && rows == old(rows) + [r.data.value] && serial == old(serial) + 1
        && r.data.value == Course(old(serial), Some(input.title.s), Some(input.description.s), Some(input.duration.s),
                                  parseFee(input.fees.s), ImageOf(input.imageUrl), old(serial), old(serial))
    {
      if MissingField(input) {
        return Failure(400, FieldsRequired);
      }
      if insertFails {
        return Failure(500, CreateFailed);
      }
      var row := Course(serial, Some(input.title.s), Some(input.description.s), Some(input.duration.s),
                        parseFee(input.fees.s), ImageOf(input.imageUrl), serial, serial);
      Table.AppendIncreasing(rows, row, CourseId);
      Table.AppendIncreasing(rows, row, CreatedAt);
      rows := rows + [row];
      serial := serial + 1;
      r := Response(201, false, Some(Created), Some(row));
    }

    /** `updateCourse`: 404 and no change when no row has the id, 500 and no
        change when the update fails; otherwise the row with the id is
        replaced by its merge with the request, every other row is kept,
        and 200 is answered with the new row. */
    method UpdateCourse(id: nat, input: CourseInput, parseFee: FeeParser, now: nat, updateFails: bool)
      returns (r: Response<Course>)
      requires Valid()
      modifies this
      ensures Valid() && serial == old(serial)
      ensures r.status != 200 ==> rows == old(rows)
      ensures !HasId(old(rows), id) ==> r == Failure(404, NotFound)
      ensures HasId(old(rows), id) && updateFails ==> r == Failure(500, UpdateFailed)
      ensures r.status == 200 <==> HasId(old(rows), id) && !updateFails
      ensures r.status == 200 ==>
        && |rows| == |old(rows)|
        && (forall i :: 0 <= i < |rows| ==>
              rows[i] == if old(rows)[i].id == id then Merge(old(rows)[i], input, parseFee, now) else old(rows)[i])
        && !r.error
        && exists i :: 0 <= i < |old(rows)| && old(rows)[i].id == id
                      && r.data == Some(Merge(old(rows)[i], input, parseFee, now))
    {
      Table.IncreasingIsDistinct(rows, CourseId);
      Table.SingleOnDistinct(rows, CourseId, id as int);
      var existing := FindById(rows, id);
      if existing.None? {
        return Failure(404, NotFound);
      }
      if updateFails {
        return Failure(500, UpdateFailed);
      }
      var updated := Merge(existing.value, input, parseFee, now);
      var next := Table.UpdateWhere(rows, CourseId, id as int, c => Merge(c, input, parseFee, now));
      assert forall i :: 0 <= i < |next| ==> next[i].id == rows[i].id && next[i].createdAt == rows[i].createdAt;
      rows := next;
      r := Response(200, false, Some(Updated), Some(updated));
    }

    /** `deleteCourse`: 404 and no change when no row has the id, 500 and no
        change when the delete fails; otherwise exactly that row is removed,
        every other row kept in order, and 200 is answered. */
    method DeleteCourse(id: nat, deleteFails: bool) returns (r: Response<()>)
      requires Valid()
      modifies this
      ensures Valid() && serial == old(serial)
      ensures r.status != 200 ==> rows == old(rows)
      ensures !HasId(old(rows), id) ==> r == Failure(404, NotFound)
      ensures HasId(old(rows), id) && deleteFails ==> r == Failure(500, DeleteFailed)
      ensures r.status == 200 <==> HasId(old(rows), id) && !deleteFails
      ensures r.status == 200 ==> !r.error
      ensures r.status == 200 ==>
        exists j :: 0 <= j < |old(rows)| && old(rows)[j].id == id && rows == old(rows)[..j] + old(rows)[j + 1..]
    {
      Table.IncreasingIsDistinct(rows, CourseId);
      Table.SingleOnDistinct(rows, CourseId, id as int);
      var existing := FindById(rows, id);
      assert existing.Some? <==> HasId(rows, id);
      if existing.None? {
        return Failure(404, NotFound);
      }
      if deleteFails {
        return Failure(500, DeleteFailed);
      }
      var j :| 0 <= j < |rows| && rows[j].id == id;
      RemoveRow(rows, serial, j);
      rows := rows[..j] + rows[j + 1..];
      r := Response(200, false, Some(Deleted), None);
    }
  }

  /** `.delete().eq('id', id)` on a well-formed table removes exactly row
      `j`, the one with that id, and the table stays well formed. */
  lemma RemoveRow(rows: seq<Course>, serial: nat, j: nat)
    requires WellFormed(rows, serial) && j < |rows|
    ensures Table.Select(rows, Table.KeyIsNot(CourseId, rows[j].id)) == rows[..j] + rows[j + 1..]
    ensures WellFormed(rows[..j] + rows[j + 1..], serial)
  {
    var keep := Table.KeyIsNot(CourseId, rows[j].id);
    Table.IncreasingIsDistinct(rows, CourseId);
    Table.DeleteUnique(rows, CourseId, rows[j].id, j);
    Table.SelectIncreasing(rows, keep, CourseId);
    Table.SelectIncreasing(rows, keep, CreatedAt);
    var rest := rows[..j] + rows[j + 1..];
    forall i | 0 <= i < |rest| ensures rest[i].id < serial && rest[i].createdAt < serial {
      if i < j {
        assert rest[i] == rows[i];
      } else {
        assert rest[i] == rows[i + 1];
      }
    }
  }

  /** Creating a course and then fetching it by the id the create answered
      yields the created record. */
  method CreateThenFetch(courses: CourseTable, input: CourseInput, parseFee: FeeParser) returns (created: Response<Course>, fetched: Response<Course>)
    requires courses.Valid() && !MissingField(input)
    modifies courses
    ensures courses.Valid()
    ensures created.status == 201 && created.data.Some?
    ensures fetched == Response(200, false, None, created.data)
  {
    created := courses.CreateCourse(input, parseFee, false);
    var j := |courses.rows| - 1;
    assert courses.rows[j] == created.data.value;
    FetchFindsRow(courses.rows, courses.serial, created.data.value.id);
    fetched := GetCourseById(courses.rows, created.data.value.id, false);
  }
}

=== FILE: crypto.dfy ===
/** The two cryptographic libraries the backend calls, bcrypt and JSON Web
    Tokens, seen only through what the handlers do with them. They are passed
    to the handlers as functions; expiry and a bad signature both make
    verification fail. */
module Crypto {
  import opened Common

  /** The payload of a signed token, `{id, email, role}`. */
  datatype Claims = Claims(id: nat, email: string, role: string)

  /** `bcrypt.hash(password, saltRounds)`. */
  type Hasher = (string, nat) -> string

  /** `bcrypt.compare(password, hash)`. */
  type Checker = (string, string) -> bool

  /** `jwt.sign(claims, secret, {expiresIn})`, the lifetime in seconds. */
  type Signer = (Claims, nat) -> string

  /** `jwt.verify(token, secret)`: the claims, or `None` when the signature is
      wrong or the token has expired. */
  type Verifier = string -> Option<Claims>

  /** The bcrypt cost factor used for every stored password hash. */
  const SaltRounds: nat := 12

  /** `expiresIn: '24h'`, in seconds. */
  const TokenLifetime: nat := 24 * 60 * 60

  /** The only role a token is ever issued for. */
  const AdminRole: string := "admin"
}

=== FILE: dashboard.dfy ===
/** The statistics the admin dashboard computes from the course and
    certificate lists, and the analytics toggle. Dates are the certificates'
    parsed issue dates; `now` is the current date. Months run from 1 to 12
    here, where JavaScript's `getMonth` counts from 0. */
module Dashboard {
  import opened Common
  import opened BrowserState
  import Table
  import CertController
  import CourseController

  type Date = CertController.Date
  type Certificate = CertController.Certificate
  type Course = CourseController.Course

  /** The number of certificates issued for one course title. */
  datatype CourseStat = CourseStat(name: Option<string>, certificates: nat)

  /** One bar of the trend chart: a month (the chart prints its short name)
      and how many certificates were issued in it. */
  datatype Trend = Trend(year: int, month: int, count: nat)

  datatype Stats = Stats(totalCourses: nat, totalCertificates: nat, certificatesThisMonth: nat,
                         certificatesThisYear: nat, recentCertificates: seq<Certificate>,
                         courseStats: seq<CourseStat>, monthlyTrends: seq<Trend>)

  /** `res.data.data || []`: a missing list counts as empty. */
  function OrEmpty<T>(data: Option<seq<T>>): (s: seq<T>)
    ensures data.None? ==> s == []
    ensures data.Some? ==> s == data.value
  {
    if data.Some? then data.value else []
  }

  // ---------------------------------------------------------------------
  // Counting by issue date

  predicate InMonth(c: Certificate, year: int, month: int) {
    c.issueDate.month == month && c.issueDate.year == year
  }

  predicate InYear(c: Certificate, year: int) {
    c.issueDate.year == year
  }

  function CountInMonth(certs: seq<Certificate>, year: int, month: int): nat {
    |Table.Select(certs, (c: Certificate) => InMonth(c, year, month))|
  }

  function CountInYear(certs: seq<Certificate>, year: int): nat {
    |Table.Select(certs, (c: Certificate) => InYear(c, year))|
  }

  /** Filtering by a condition that implies another keeps no more elements. */
  lemma {:induction false} SelectWeaker<T>(s: seq<T>, p: T -> bool, q: T -> bool)
    requires forall i :: 0 <= i < |s| ==> p(s[i]) ==> q(s[i])
    ensures |Table.Select(s, p)| <= |Table.Select(s, q)|
  {
    if s != [] {
      SelectWeaker(s[1..], p, q);
    }
  }

  /** No month of a year has more certificates than the whole year. */
  lemma MonthWithinYear(certs: seq<Certificate>, year: int, month: int)
    ensures CountInMonth(certs, year, month) <= CountInYear(certs, year)
  {
    SelectWeaker(certs, (c: Certificate) => InMonth(c, year, month), (c: Certificate) => InYear(c, year));
  }

  // ---------------------------------------------------------------------
  // Most recent certificates

  /** `a` was issued no later than `b`. */
  predicate NoLater(a: Date, b: Date) {
    a.year < b.year || (a.year == b.year && (a.month < b.month || (a.month == b.month && a.day <= b.day)))
  }

  /** Newest first. */
  predicate NewestFirst(s: seq<Certificate>) {
    forall i, j :: 0 <= i < j < |s| ==> NoLater(s[j].issueDate, s[i].issueDate)
  }

  /** Putting a certificate issued no earlier than the head in front of a
      newest-first list keeps it newest first. */
  lemma PrependNewest(x: Certificate, s: seq<Certificate>)
    requires NewestFirst(s)
    requires s == [] || NoLater(s[0].issueDate, x.issueDate)
    ensures NewestFirst([x] + s)
  {
    var r := [x] + s;
    forall i, j | 0 <= i < j < |r| ensures NoLater(r[j].issueDate, r[i].issueDate) {
      if i == 0 {
        assert r[j] == s[j - 1];
        if j > 1 {
          assert NoLater(s[j - 1].issueDate, s[0].issueDate);
        }
      } else {
        assert r[i] == s[i - 1] && r[j] == s[j - 1];
      }
    }
  }

  /** Places `c` before the first certificate issued strictly earlier. */
  function Insert(c: Certificate, s: seq<Certificate>): (r: seq<Certificate>)
    requires NewestFirst(s)
    ensures |r| == |s| + 1
    ensures r[0] == c || (s != [] && r[0] == s[0])
    ensures NewestFirst(r)
    ensures multiset(r) == multiset(s) + multiset{c}
    decreases |s|
  {
    if s == [] || NoLater(s[0].issueDate, c.issueDate) then
      PrependNewest(c, s);
      [c] + s
    else
      assert s == [s[0]] + s[1..];
      var rest := Insert(c, s[1..]);
      assert NoLater(rest[0].issueDate, s[0].issueDate);
      PrependNewest(s[0], rest);
      [s[0]] + rest
  }

  /** `certificates.sort((a, b) => new Date(b.issue_date) - new Date(a.issue_date))`:
      the same certificates, newest first. */
  function SortNewestFirst(s: seq<Certificate>): (r: seq<Certificate>)
    ensures NewestFirst(r)
    ensures multiset(r) == multiset(s)
    ensures |r| == |s|
    decreases |s|
  {
    if s == [] then []
    else
      assert s == [s[0]] + s[1..];
      Insert(s[0], SortNewestFirst(s[1..]))
  }

  /** `.slice(0, 5)` of the sorted list. */
  function Recent(certs: seq<Certificate>): (r: seq<Certificate>)
  {
    var sorted := SortNewestFirst(certs);
    if |sorted| <= 5 then sorted else sorted[..5]
  }

  /** The recent list holds the first five certificates (all of them when
      there are fewer), newest first, each one from the list. */
  lemma RecentFromList(certs: seq<Certificate>)
    ensures var r := Recent(certs);
      && |r| == (if |certs| < 5 then |certs| else 5)
      && NewestFirst(r)
      && (forall i :: 0 <= i < |r| ==> r[i] in certs)
  {
    var sorted := SortNewestFirst(certs);
    var r := Recent(certs);
    forall i, j | 0 <= i < j < |r| ensures NoLater(r[j].issueDate, r[i].issueDate) {
      assert r[i] == sorted[i] && r[j] == sorted[j];
    }
    forall i | 0 <= i < |r| ensures r[i] in certs {
      assert r[i] == sorted[i];
      assert sorted[i] in multiset(sorted);
    }
  }

  /** Cutting a newest-first list in two: the parts together are the list,
      and nothing in the second part is newer than anything in the first. */
  lemma CutNewestFirst(s: seq<Certificate>, n: nat)
    requires NewestFirst(s) && n <= |s|
    ensures multiset(s[..n]) + multiset(s[n..]) == multiset(s)
    ensures forall i, j :: 0 <= i < n && 0 <= j < |s| - n ==> NoLater(s[n..][j].issueDate, s[..n][i].issueDate)
  {
    assert s == s[..n] + s[n..];
    forall i, j | 0 <= i < n && 0 <= j < |s| - n
      ensures NoLater(s[n..][j].issueDate, s[..n][i].issueDate)
    {
      assert s[..n][i] == s[i] && s[n..][j] == s[n + j];
    }
  }

  /** What the recent list leaves out was issued no later than anything it
      holds: the list and the rest together are exactly the certificates. */
  lemma RecentAreNewest(certs: seq<Certificate>)
    ensures exists rest: seq<Certificate> ::
      && multiset(Recent(certs)) + multiset(rest) == multiset(certs)
      && forall i, j :: 0 <= i < |Recent(certs)| && 0 <= j < |rest| ==>
           NoLater(rest[j].issueDate, Recent(certs)[i].issueDate)
  {
    var sorted := SortNewestFirst(certs);
    var n := if |sorted| <= 5 then |sorted| else 5;
    var r := Recent(certs);
    assert r == sorted[..n];
    CutNewestFirst(sorted, n);
    var rest := sorted[n..];
    assert multiset(r) + multiset(rest) == multiset(certs);
    assert forall i, j :: 0 <= i < |r| && 0 <= j < |rest| ==> NoLater(rest[j].issueDate, r[i].issueDate);
  }

  // ---------------------------------------------------------------------
  // Per-course counts

  /** `cert.course_name === course.title`. */
  predicate OfCourse(c: Certificate, title: Option<string>) {
    title == Some(c.courseName)
  }

  /** `courses.map(course => ({name: course.title, certificates: ...}))`. */
  function CourseStats(courses: seq<Course>, certs: seq<Certificate>): (r: seq<CourseStat>)
    ensures |r| == |courses|
    ensures forall i :: 0 <= i < |courses| ==>
      r[i].name == courses[i].title
      && r[i].certificates == |Table.Select(certs, (c: Certificate) => OfCourse(c, courses[i].title))|
  {
    seq(|courses|, i requires 0 <= i < |courses| =>
      CourseStat(courses[i].title, |Table.Select(certs, (c: Certificate) => OfCourse(c, courses[i].title))|))
  }

  /** A course's count never exceeds the number of certificates, and a
      course whose title is `null` counts none. */
  lemma CourseStatsCountMatches(courses: seq<Course>, certs: seq<Certificate>, i: nat)
    requires i < |courses|
    ensures courses[i].title.None? ==> CourseStats(courses, certs)[i].certificates == 0
    ensures CourseStats(courses, certs)[i].certificates <= |certs|
  {
    var sel := Table.Select(certs, (c: Certificate) => OfCourse(c, courses[i].title));
    assert |sel| > 0 ==> OfCourse(sel[0], courses[i].title);
    assert CourseStats(courses, certs)[i].certificates == |sel|;
  }

  // ---------------------------------------------------------------------
  // Monthly trends

  /** `new Date(year, month - 1 - back, 1)`'s year and month: the month
      `back` months before (`year`, `month`), rolling over year ends. */
  function MonthsBack(year: int, month: int, back: int): (r: (int, int))
    requires 1 <= month <= 12
    ensures 1 <= r.1 <= 12
    ensures r.0 * 12 + r.1 == year * 12 + month - back
  {
    var index := month - 1 - back;
    (year + index / 12, index % 12 + 1)
  }

  /** The month after a month. */
  function NextMonth(year: int, month: int): (int, int) {
    if month == 12 then (year + 1, 1) else (year, month + 1)
  }

  /** The six-month window of the trend chart, oldest first: entry `k` is
      the month `5 - k` months before now, with its certificate count. It is
      built as the source builds it, by a loop that pushes one entry per
      month. */
  method MonthlyTrends(certs: seq<Certificate>, now: Date) returns (trends: seq<Trend>)
    requires 1 <= now.month <= 12
    ensures |trends| == 6
    ensures forall k :: 0 <= k < 6 ==>
      var m := MonthsBack(now.year, now.month, 5 - k);
      trends[k] == Trend(m.0, m.1, CountInMonth(certs, m.0, m.1))
  {
    trends := [];
    var i := 5;
    while i >= 0
      invariant -1 <= i <= 5
      invariant |trends| == 5 - i
      invariant forall k :: 0 <= k < |trends| ==>
        var m := MonthsBack(now.year, now.month, 5 - k);
        trends[k] == Trend(m.0, m.1, CountInMonth(certs, m.0, m.1))
      decreases i
    {
      var m := MonthsBack(now.year, now.month, i);
      var count := |Table.Select(certs, (c: Certificate) => InMonth(c, m.0, m.1))|;
      trends := trends + [Trend(m.0, m.1, count)];
      i := i - 1;
    }
  }

  /** The window ends with the current month, whose count is the
      "this month" figure, and each entry is the month after the one before
      it, across year ends too. */
  lemma TrendWindow(certs: seq<Certificate>, now: Date, trends: seq<Trend>)
    requires 1 <= now.month <= 12
    requires |trends| == 6
    requires forall k :: 0 <= k < 6 ==>
      var m := MonthsBack(now.year, now.month, 5 - k);
      trends[k] == Trend(m.0, m.1, CountInMonth(certs, m.0, m.1))
    ensures trends[5] == Trend(now.year, now.month, CountInMonth(certs, now.year, now.month))
    ensures forall k :: 0 <= k < 5 ==> NextMonth(trends[k].year, trends[k].month) == (trends[k + 1].year, trends[k + 1].month)
  {
    var last := MonthsBack(now.year, now.month, 0);
    assert last == (now.year, now.month);
    forall k | 0 <= k < 5
      ensures NextMonth(trends[k].year, trends[k].month) == (trends[k + 1].year, trends[k + 1].month)
    {
      var a := MonthsBack(now.year, now.month, 5 - k);
      var b := MonthsBack(now.year, now.month, 4 - k);
      assert b.0 * 12 + b.1 == a.0 * 12 + a.1 + 1;
    }
  }

  // ---------------------------------------------------------------------
  // The statistics block

  /** What the statistics block holds for the two lists at `now`: the
      totals, this month's and this year's counts (the first never above the
      second), the five newest certificates, the per-course counts, and the
      six-month trend window whose entry `k` is the month `5 - k` months back
      with its count, ending with the current month and this month's figure. */
  predicate StatsOf(stats: Stats, courseData: Option<seq<Course>>, certData: Option<seq<Certificate>>, now: Date)
    requires 1 <= now.month <= 12
  {
    var courses := OrEmpty(courseData); var certs := OrEmpty(certData);
    && stats.totalCourses == |courses| && stats.totalCertificates == |certs|
    && stats.certificatesThisMonth == CountInMonth(certs, now.year, now.month)
    && stats.certificatesThisYear == CountInYear(certs, now.year)
    && stats.certificatesThisMonth <= stats.certificatesThisYear
    && stats.recentCertificates == Recent(certs)
    && stats.courseStats == CourseStats(courses, certs)
    && |stats.monthlyTrends| == 6
    && (forall k :: 0 <= k < 6 ==>
          var m := MonthsBack(now.year, now.month, 5 - k);
          stats.monthlyTrends[k] == Trend(m.0, m.1, CountInMonth(certs, m.0, m.1)))
    && stats.monthlyTrends[5] == Trend(now.year, now.month, stats.certificatesThisMonth)
  }

  /** The block is determined by the two lists and the date: any two blocks
      that both describe them are the same block. */
  lemma StatsOfUnique(a: Stats, b: Stats, courseData: Option<seq<Course>>, certData: Option<seq<Certificate>>, now: Date)
    requires 1 <= now.month <= 12
    requires StatsOf(a, courseData, certData, now) && StatsOf(b, courseData, certData, now)
    ensures a == b
  {
    assert forall k :: 0 <= k < 6 ==> a.monthlyTrends[k] == b.monthlyTrends[k];
    assert a.monthlyTrends == b.monthlyTrends;
  }

  /** The statistics block of `fetchDashboardData`, once both lists have
      arrived. */
  method ComputeStats(courseData: Option<seq<Course>>, certData: Option<seq<Certificate>>, now: Date)
    returns (stats: Stats)
    requires 1 <= now.month <= 12
    ensures StatsOf(stats, courseData, certData, now)
  {
    var courses := OrEmpty(courseData);
    var certs := OrEmpty(certData);
    var thisMonth := CountInMonth(certs, now.year, now.month);
    var thisYear := CountInYear(certs, now.year);
    MonthWithinYear(certs, now.year, now.month);
    var trends := MonthlyTrends(certs, now);
    TrendWindow(certs, now, trends);
    stats := Stats(|courses|, |certs|, thisMonth, thisYear, Recent(certs), CourseStats(courses, certs), trends);
  }

  /** The dashboard's own state. */
  class DashboardPage {
    var showAnalytics: bool
    var loading: bool
    var stats: Stats

    constructor ()
      ensures !showAnalytics && !loading && stats == Stats(0, 0, 0, 0, [], [], [])
    {
      showAnalytics := false;
      loading := false;
      stats := Stats(0, 0, 0, 0, [], [], []);
    }

    /** `handleAnalyticsClick`: asks for the data only when opening the panel,
        and always flips it. */
    method HandleAnalyticsClick() returns (fetch: bool)
      modifies this
      ensures fetch <==> !old(showAnalytics)
      ensures showAnalytics == !old(showAnalytics)
      ensures stats == old(stats) && loading == old(loading)
    {
      fetch := !showAnalytics;
      showAnalytics := !showAnalytics;
    }

    /** `fetchDashboardData` once both requests have settled: when both
        succeeded the statistics are replaced by the block computed from the
        two lists, otherwise they are kept; `loading` ends false. */
    method FetchDashboardData(courses: Reply<Option<seq<Course>>>, certs: Reply<Option<seq<Certificate>>>, now: Date)
      requires 1 <= now.month <= 12
      modifies this
      ensures !loading && showAnalytics == old(showAnalytics)
      ensures !(courses.Ok? && certs.Ok?) ==> stats == old(stats)
      ensures courses.Ok? && certs.Ok? ==> StatsOf(stats, courses.data, certs.data, now)
    {
      loading := true;
      if courses.Ok? && certs.Ok? {
        stats := ComputeStats(courses.data, certs.data, now);
      }
      loading := false;
    }
  }
}

=== FILE: manage_certificates.dfy ===
/** The admin certificate page: the list, the issue form with its
    number generator, and delete. The form is a JavaScript object of string
    fields, modelled as a map from field name to value. */
module ManageCertificates {
  import opened Common
  import opened BrowserState
  import CertController
  import CourseController

  /** The form as the page first shows it and after every reset: four empty
      fields and status 'Valid'. */
  const DefaultForm: map<string, string> := map[
    "student_name" := "", "course_name" := "", "issue_date" := "", "cert_number" := "", "status" := "Valid"
  ]

  const CertPrefix: string := "CERT-"

  /** The certificates collection of the API, relative to the server. */
  const CertificatesApi: string := "/api/certificates"

  /** `generateCertNumber()` with `Math.floor(Math.random() * 1000)` drawn as
      `random` and the current year as `year`: `CERT-<random, zero-padded to
      three digits>-<year>`. */
  function GenerateCertNumber(random: nat, year: nat): (n: string)
    requires random < 1000
  {
    CertPrefix + PadStart(NatToString(random), 3) + "-" + NatToString(year)
  }

  /** A number below 1000 has at most three digits. */
  lemma NatToStringShort(n: nat)
    requires n < 1000
    ensures |NatToString(n)| <= 3
  {
    if n >= 10 {
      var q := n / 10;
      assert q < 100;
      assert |NatToString(n)| == |NatToString(q)| + 1;
      if q >= 10 {
        assert q / 10 < 10;
        assert |NatToString(q)| == |NatToString(q / 10)| + 1;
      }
    }
  }

  /** The middle part of a number: three digits that spell the draw. */
  lemma {:induction false} PaddedDraw(random: nat)
    requires random < 1000
    ensures var middle := PadStart(NatToString(random), 3);
      && |middle| == 3
      && (forall i :: 0 <= i < 3 ==> IsDigit(middle[i]))
      && DigitsValue(middle) == random
  {
    var digits := NatToString(random);
    NatToStringShort(random);
    ZerosPrefixValue(3 - |digits|, digits);
    NatToStringRoundTrip(random);
  }

  /** A generated number always reads `CERT-`, then exactly three digits that
      spell `random`, then `-` and the year's numeral; so two draws that
      differ give different numbers. */
  lemma {:induction false} GeneratedNumberShape(random: nat, year: nat)
    requires random < 1000
    ensures var n := GenerateCertNumber(random, year);
      && |n| == 9 + |NatToString(year)|
      && n[..5] == CertPrefix && n[8] == '-' && n[9..] == NatToString(year)
      && (forall i :: 5 <= i < 8 ==> IsDigit(n[i]))
      && DigitsValue(n[5..8]) == random
  {
    var middle := PadStart(NatToString(random), 3);
    PaddedDraw(random);
    var n := GenerateCertNumber(random, year);
    assert n == CertPrefix + middle + "-" + NatToString(year);
    assert n[..5] == CertPrefix;
    assert n[5..8] == middle;
    assert n[8] == '-';
    assert n[9..] == NatToString(year);
  }

  /** Two different draws in the same year give different numbers. */
  lemma DifferentDrawsDiffer(r1: nat, r2: nat, year: nat)
    requires r1 < 1000 && r2 < 1000 && r1 != r2
    ensures GenerateCertNumber(r1, year) != GenerateCertNumber(r2, year)
  {
    GeneratedNumberShape(r1, year);
    GeneratedNumberShape(r2, year);
  }

  /** The body `axios.post` sends for a form: every key present is a string
      field, every other one is absent. */
  function InputOf(form: map<string, string>): (input: CertController.CertInput)
    ensures "student_name" in form ==> input.studentName == Text(form["student_name"])
    ensures "student_name" !in form ==> input.studentName == Undefined
    ensures "course_name" in form ==> input.courseName == Text(form["course_name"])
    ensures "course_name" !in form ==> input.courseName == Undefined
    ensures "issue_date" in form ==> input.issueDate == Text(form["issue_date"])
    ensures "issue_date" !in form ==> input.issueDate == Undefined
    ensures "cert_number" in form ==> input.certNumber == Text(form["cert_number"])
    ensures "cert_number" !in form ==> input.certNumber == Undefined
    ensures "status" in form ==> input.status == Text(form["status"])
    ensures "status" !in form ==> input.status == Undefined
  {
    CertController.CertInput(FieldOf(form, "student_name"), FieldOf(form, "course_name"), FieldOf(form, "issue_date"),
                             FieldOf(form, "cert_number"), FieldOf(form, "status"))
  }

  function FieldOf(form: map<string, string>, key: string): Field {
    if key in form then Text(form[key]) else Undefined
  }

  /** Submitting the untouched form is refused by the backend as missing
      fields; its status 'Valid' is what the backend would store anyway. */
  lemma DefaultFormIsIncomplete()
    ensures CertController.MissingField(InputOf(DefaultForm))
    ensures CertController.StatusOf(InputOf(DefaultForm)) == CertController.StatusOf(InputOf(DefaultForm - {"status"}))
  {
  }

  /** The request `handleSubmit` sends: a `POST` of a body to an address. */
  datatype Post = Post(path: string, body: CertController.CertInput)

  /** The colour of a status badge. */
  datatype Badge = Green | Yellow | Red

  /** 'Valid' is green, 'Expired' yellow, anything else (including no
      status) red. */
  function StatusBadge(status: Field): (b: Badge)
    ensures b == Green <==> status == Text("Valid")
    ensures b == Yellow <==> status == Text("Expired")
    ensures b == Red <==> status != Text("Valid") && status != Text("Expired")
  {
    if status == Text("Valid") then Green
    else if status == Text("Expired") then Yellow
    else Red
  }

  /** The badge is green exactly for the certificates the public check
      reports as valid. */
  lemma BadgeAgreesWithVerification(c: CertController.Certificate)
    ensures StatusBadge(c.status) == Green <==> CertController.IsValid(c)
  {
  }

  class CertificatesPage {
    var certificates: seq<CertController.Certificate>
    var courses: seq<CourseController.Course>
    var loading: bool
    var showForm: bool
    var formData: map<string, string>

    constructor ()
      ensures certificates == [] && courses == [] && loading && !showForm && formData == DefaultForm
    {
      certificates := [];
      courses := [];
      loading := true;
      showForm := false;
      formData := DefaultForm;
    }

    /** `fetchCertificates()` once answered: a success replaces the list;
        `loading` ends false either way. */
    method FetchCertificates(reply: Reply<seq<CertController.Certificate>>)
      modifies this
      ensures !loading
      ensures certificates == if reply.Ok? then reply.data else old(certificates)
      ensures courses == old(courses) && showForm == old(showForm) && formData == old(formData)
    {
      if reply.Ok? {
        certificates := reply.data;
      }
      loading := false;
    }

    /** `fetchCourses()` once answered: a success replaces the course list. */
    method FetchCourses(reply: Reply<seq<CourseController.Course>>)
      modifies this
      ensures courses == if reply.Ok? then reply.data else old(courses)
      ensures certificates == old(certificates) && loading == old(loading)
      ensures showForm == old(showForm) && formData == old(formData)
    {
      if reply.Ok? {
        courses := reply.data;
      }
    }

    /** `handleInputChange`: the named field takes the typed value; every
        other field keeps its value. */
    method HandleInputChange(name: string, value: string)
      modifies this
      ensures formData == old(formData)[name := value]
      ensures forall k :: k != name ==> (k in formData <==> k in old(formData))
      ensures forall k :: k != name && k in formData ==> formData[k] == old(formData)[k]
      ensures certificates == old(certificates) && courses == old(courses) && showForm == old(showForm) && loading == old(loading)
    {
      formData := formData[name := value];
    }

    /** The "Generate" button: only the number field changes, to a freshly
        generated number. */
    method UseGeneratedNumber(random: nat, year: nat)
      requires random < 1000
      modifies this
      ensures formData == old(formData)["cert_number" := GenerateCertNumber(random, year)]
      ensures certificates == old(certificates) && courses == old(courses) && showForm == old(showForm) && loading == old(loading)
    {
      formData := formData["cert_number" := GenerateCertNumber(random, year)];
    }

    /** The request `handleSubmit` sends: the whole form, as the create body,
        posted to the certificates collection. */
    function SubmitRequest(): (r: Post)
      reads this
      ensures r.path == CertificatesApi
      ensures r.body == InputOf(formData)
    {
      Post(CertificatesApi, InputOf(formData))
    }

    /** `handleSubmit` once the create request has been answered: a success
        resets the form, hides it and asks for the list again; a failure
        leaves the form and its visibility as they were. */
    method FinishSubmit(succeeded: bool) returns (refetch: bool)
      modifies this
      ensures refetch == succeeded
      ensures succeeded ==> formData == DefaultForm && !showForm
      ensures !succeeded ==> formData == old(formData) && showForm == old(showForm)
      ensures certificates == old(certificates) && courses == old(courses) && loading == old(loading)
    {
      if succeeded {
        formData := DefaultForm;
        showForm := false;
      }
      refetch := succeeded;
    }

    /** `handleDelete(id)`: a `DELETE` of the record's address goes out only once the user
        confirms, and the list is fetched again only when it succeeded;
        nothing on the page changes here. */
    method HandleDelete(id: nat, confirmed: bool, succeeded: bool) returns (request: Option<string>, refetch: bool)
      ensures request.Some? <==> confirmed
      ensures request.Some? ==> request.value == CertificatesApi + "/" + NatToString(id)
      ensures refetch <==> confirmed && succeeded
    {
      if confirmed {
        request := Some(CertificatesApi + "/" + NatToString(id));
        refetch := succeeded;
      } else {
        request := None;
        refetch := false;
      }
    }

    /** `resetForm`: the default form, hidden. */
    method ResetForm()
      modifies this
      ensures formData == DefaultForm && !showForm
      ensures certificates == old(certificates) && courses == old(courses) && loading == old(loading)
    {
      formData := DefaultForm;
      showForm := false;
    }
  }

  /** Submitting the page while its form is untouched (as the page opens, or
      after a reset) posts a body the backend refuses with 400 for missing
      fields, and no certificate is stored. */
  method SubmitUntouched(page: CertificatesPage, table: CertController.CertificateTable,
                         parse: CertController.DateParser, insertFails: bool)
    returns (r: Response<CertController.Certificate>)
    requires page.formData == DefaultForm && table.Valid()
    modifies table
    ensures r == Failure(400, CertController.FieldsRequired)
    ensures table.rows == old(table.rows) && table.serial == old(table.serial)
  {
    var request := page.SubmitRequest();
    DefaultFormIsIncomplete();
    r := table.CreateCertificate(request.body, parse, insertFails);
  }
}

=== FILE: manage_courses.dfy ===
/** The admin course page: the list, one form used both to create a course
    and to edit one, and delete. The form is a JavaScript object, modelled as
    a map from field name to value. */
module ManageCourses {
  import opened Common
  import opened BrowserState
  import CourseController

  /** A form value: the text typed, or what `handleEdit` copied from a record
      (a number for `fees`, `null` for a cleared column). */
  datatype Value = Str(s: string) | Num(x: real) | NullValue

  /** Five empty fields. */
  const EmptyForm: map<string, Value> := map[
    "title" := Str(""), "description" := Str(""), "duration" := Str(""), "fees" := Str(""), "image_url" := Str("")
  ]

  /** The courses collection of the API, relative to the server. */
  const CoursesApi: string := "/api/courses"

  /** The request a submit sends. */
  datatype Request = Update(id: nat, body: map<string, Value>) | Create(body: map<string, Value>)

  function TextValue(v: Option<string>): Value {
    if v.Some? then Str(v.value) else NullValue
  }

  /** The form `handleEdit` fills from a record: title, description,
      duration and fees copied as they are, the image link defaulting to the
      empty string. */
  function EditForm(c: CourseController.Course): (form: map<string, Value>)
    ensures form.Keys == EmptyForm.Keys
    ensures form["title"] == TextValue(c.title) && form["description"] == TextValue(c.description)
    ensures form["duration"] == TextValue(c.duration)
    ensures form["fees"] == if c.fees.Some? then Num(c.fees.value) else NullValue
    ensures form["image_url"] == if c.imageUrl.Some? then Str(c.imageUrl.value) else Str("")
  {
    map[
      "title" := TextValue(c.title), "description" := TextValue(c.description), "duration" := TextValue(c.duration),
      "fees" := if c.fees.Some? then Num(c.fees.value) else NullValue,
      "image_url" := if c.imageUrl.Some? && c.imageUrl.value != "" then Str(c.imageUrl.value) else Str("")
    ]
  }

  class CoursesPage {
    var courses: seq<CourseController.Course>
    var loading: bool
    var showForm: bool
    var editingCourse: Option<CourseController.Course>
    var formData: map<string, Value>

    constructor ()
      ensures courses == [] && loading && !showForm && editingCourse.None? && formData == EmptyForm
    {
      courses := [];
      loading := true;
      showForm := false;
      editingCourse := None;
      formData := EmptyForm;
    }

    /** `fetchCourses()` once answered: a success replaces the list; `loading`
        ends false either way. */
    method FetchCourses(reply: Reply<seq<CourseController.Course>>)
      modifies this
      ensures !loading
      ensures courses == if reply.Ok? then reply.data else old(courses)
      ensures showForm == old(showForm) && editingCourse == old(editingCourse) && formData == old(formData)
    {
      if reply.Ok? {
        courses := reply.data;
      }
      loading := false;
    }

    /** `handleInputChange`: the named field takes the typed text; every other
        field keeps its value. */
    method HandleInputChange(name: string, value: string)
      modifies this
      ensures formData == old(formData)[name := Str(value)]
      ensures forall k :: k != name && k in formData ==> k in old(formData) && formData[k] == old(formData)[k]
      ensures courses == old(courses) && loading == old(loading) && showForm == old(showForm) && editingCourse == old(editingCourse)
    {
      formData := formData[name := Str(value)];
    }

    /** The request `handleSubmit` sends: an update of the course being
        edited, by its id, or else a create; both carry the whole form. */
    function SubmitRequest(): (r: Request)
      reads this
      ensures editingCourse.Some? <==> r.Update?
      ensures r.Update? ==> r.id == editingCourse.value.id
      ensures r.body == formData
    {
      if editingCourse.Some? then Update(editingCourse.value.id, formData) else Create(formData)
    }

    /** `handleSubmit` once the request has been answered. On success: an edit
        is finished (`editingCourse` cleared), the form is emptied and hidden,
        and the list is fetched again. On failure nothing changes. */
    method FinishSubmit(succeeded: bool) returns (refetch: bool)
      modifies this
      ensures refetch == succeeded
      ensures succeeded ==> formData == EmptyForm && !showForm && editingCourse.None?
      ensures !succeeded ==> formData == old(formData) && showForm == old(showForm) && editingCourse == old(editingCourse)
      ensures courses == old(courses) && loading == old(loading)
    {
      if succeeded {
        editingCourse := None;
        formData := EmptyForm;
        showForm := false;
      }
      refetch := succeeded;
    }

    /** `handleEdit(course)`: remembers the course, fills the form from it,
        and shows the form. */
    method HandleEdit(course: CourseController.Course)
      modifies this
      ensures editingCourse == Some(course) && formData == EditForm(course) && showForm
      ensures courses == old(courses) && loading == old(loading)
    {
      editingCourse := Some(course);
      formData := EditForm(course);
      showForm := true;
    }

    /** `handleDelete(id)`: a `DELETE` of the record's address goes out only once the user
        confirms, and the list is fetched again only when it succeeded;
        nothing on the page changes here. */
    method HandleDelete(id: nat, confirmed: bool, succeeded: bool) returns (request: Option<string>, refetch: bool)
      ensures request.Some? <==> confirmed
      ensures request.Some? ==> request.value == CoursesApi + "/" + NatToString(id)
      ensures refetch <==> confirmed && succeeded
    {
      if confirmed {
        request := Some(CoursesApi + "/" + NatToString(id));
        refetch := succeeded;
      } else {
        request := None;
        refetch := false;
      }
    }

    /** `resetForm`: an empty form, no course being edited, and the form
        hidden. */
    method ResetForm()
      modifies this
      ensures formData == EmptyForm && editingCourse.None? && !showForm
      ensures courses == old(courses) && loading == old(loading)
    {
      formData := EmptyForm;
      editingCourse := None;
      showForm := false;
    }
  }

  /** Editing a course and submitting without a change updates exactly that
      course, and a successful save leaves the page ready for a new course. */
  method EditAndSave(page: CoursesPage, course: CourseController.Course) returns (request: Request, refetch: bool)
    modifies page
    ensures request == Update(course.id, EditForm(course))
    ensures refetch && page.editingCourse.None? && page.formData == EmptyForm && !page.showForm
    ensures page.SubmitRequest().Create?
  {
    page.HandleEdit(course);
    request := page.SubmitRequest();
    refetch := page.FinishSubmit(true);
  }
}

=== FILE: protected_route.dfy ===
/** `ProtectedRoute`: what a guarded page shows for the current session
    state. */
module ProtectedRoute {
  import opened BrowserState

  /** What the guard renders: the spinner, a redirect, or the guarded page. */
  datatype Outcome =
    | Spinner
    | Redirect(to: string, from: string, replace: bool)
    | Children

  /** The guard's decision. Loading takes precedence over everything; when
      the check is over an unauthenticated visitor is sent, replacing the
      history entry, to the sign-in page with the current location kept as
      `from`; an authenticated one sees the page. */
  function Guard(loading: bool, authenticated: bool, location: string): (o: Outcome)
    ensures o.Spinner? <==> loading
    ensures o.Children? <==> !loading && authenticated
    ensures o.Redirect? <==> !loading && !authenticated
    ensures o.Redirect? ==> o == Redirect(LoginPath, location, true)
  {
    if loading then Spinner
    else if !authenticated then Redirect(LoginPath, location, true)
    else Children
  }

  /** The guarded page is shown only to an authenticated session whose check
      is over, and then for every location. */
  lemma ChildrenOnlyWhenSignedIn(loading: bool, authenticated: bool, location: string, other: string)
    ensures Guard(loading, authenticated, location).Children? ==> !loading && authenticated
    ensures Guard(loading, authenticated, location).Children? == Guard(loading, authenticated, other).Children?
  {
  }
}

=== FILE: routes.dfy ===
/** The three express routers of the backend as declarative tables of
    (method, path pattern, guarded?, handler), and the dispatch of a request
    through a table: the first route whose method and pattern match is
    chosen, and a guarded route runs `authMiddleware` before its handler. */
module Routes {
  import opened Common
  import opened Crypto
  import opened AuthMiddleware

  datatype Verb = Get | Post | Put | Delete

  /** One segment of a route pattern: a literal, or a `:name` parameter that
      matches any non-empty segment. */
  datatype Segment = Lit(text: string) | Param(name: string)

  /** The controller functions the routers name. */
  datatype Handler =
    | Login | Logout | GetCurrentUser | CreateAdminUser
    | VerifyCertificate | GetAllCertificates | CreateCertificate | DeleteCertificate
    | GetAllCourses | GetCourseById | CreateCourse | UpdateCourse | DeleteCourse

  /** `router.<verb>(pattern, [authMiddleware,] handler)`. */
  datatype Route = Route(verb: Verb, pattern: seq<Segment>, guarded: bool, handler: Handler)

  /** What becomes of a request: no route matches (express's own 404), the
      gate answers with its error, or the handler runs, with `req.user` set
      when the gate passed it. */
  datatype Dispatched = NoRoute | Rejected(response: Response<Claims>) | Invoked(handler: Handler, user: Option<Claims>)

  /** `authRoutes`, mounted under `/api/auth`. */
  const AuthRoutes: seq<Route> := [
    Route(Post, [Lit("login")], false, Login),
    Route(Post, [Lit("logout")], false, Logout),
    Route(Get, [Lit("me")], true, GetCurrentUser),
    Route(Post, [Lit("create-admin")], false, CreateAdminUser)
  ]

  /** `certRoutes`, mounted under `/api/certificates`. */
  const CertRoutes: seq<Route> := [
    Route(Get, [Lit("verify"), Param("number")], false, VerifyCertificate),
    Route(Get, [], true, GetAllCertificates),
    Route(Post, [], true, CreateCertificate),
    Route(Delete, [Param("id")], true, DeleteCertificate)
  ]

  /** `courseRoutes`, mounted under `/api/courses`. */
  const CourseRoutes: seq<Route> := [
    Route(Get, [], false, GetAllCourses),
    Route(Get, [Param("id")], false, GetCourseById),
    Route(Post, [], true, CreateCourse),
    Route(Put, [Param("id")], true, UpdateCourse),
    Route(Delete, [Param("id")], true, DeleteCourse)
  ]

  /** Whether a request path (its segments after the mount point) matches a
      pattern. */
  predicate Matches(pattern: seq<Segment>, path: seq<string>) {
    |pattern| == |path| && forall i :: 0 <= i < |path| ==> SegmentMatches(pattern[i], path[i])
  }

  /** A literal matches exactly its own text, a parameter any non-empty
      segment. */
  predicate SegmentMatches(segment: Segment, word: string) {
    match segment
    case Lit(text) => word == text
    case Param(_) => word != ""
  }

  /** Whether a route serves a request. */
  predicate Serves(route: Route, verb: Verb, path: seq<string>) {
    route.verb == verb && Matches(route.pattern, path)
  }

  /** The route express picks: the first one in declaration order that
      serves the request. */
  function FindRoute(routes: seq<Route>, verb: Verb, path: seq<string>): (r: Option<nat>)
    ensures r.None? <==> forall i :: 0 <= i < |routes| ==> !Serves(routes[i], verb, path)
    ensures r.Some? ==> r.value < |routes| && Serves(routes[r.value], verb, path)
                        && forall i :: 0 <= i < r.value ==> !Serves(routes[i], verb, path)
    decreases |routes|
  {
    if routes == [] then None
    else if Serves(routes[0], verb, path) then Some(0)
    else match FindRoute(routes[1..], verb, path)
      case None => None
      case Some(k) => Some(k + 1)
  }

  /** Running the chosen route: a guarded one goes through the gate first. */
  function Dispatch(routes: seq<Route>, verb: Verb, path: seq<string>, header: Option<string>, verify: Verifier)
    : (d: Dispatched)
    ensures d.NoRoute? <==> FindRoute(routes, verb, path).None?
    ensures d.Invoked? ==> exists i :: 0 <= i < |routes| && routes[i].handler == d.handler && Serves(routes[i], verb, path)
  {
    match FindRoute(routes, verb, path)
    case None => NoRoute
    case Some(i) =>
      var route := routes[i];
      if !route.guarded then Invoked(route.handler, None)
      else match Authorize(header, verify)
        case Reject(status, message) => Rejected(Failure(status, message))
        case Accept(user) => Invoked(route.handler, Some(user))
  }

  /** A request goes to the first route that serves it: through the gate
      when that route is guarded, straight to its handler otherwise. */
  lemma FirstServes(routes: seq<Route>, verb: Verb, path: seq<string>, i: nat, header: Option<string>, verify: Verifier)
    requires i < |routes| && Serves(routes[i], verb, path)
    requires forall k :: 0 <= k < i ==> !Serves(routes[k], verb, path)
    ensures FindRoute(routes, verb, path) == Some(i)
    ensures Dispatch(routes, verb, path, header, verify)
      == if routes[i].guarded then Gated(routes[i].handler, header, verify) else Invoked(routes[i].handler, None)
  {
  }

  /** The handlers that read or change what only an administrator may: the
      current account, the certificate list, and every certificate and
      course write. */
  predicate Privileged(h: Handler) {
    h in {GetCurrentUser, GetAllCertificates, CreateCertificate, DeleteCertificate, CreateCourse, UpdateCourse, DeleteCourse}
  }

  /** Every route to a privileged handler is behind the gate. */
  predicate GuardsPrivileged(routes: seq<Route>) {
    forall i :: 0 <= i < |routes| ==> Privileged(routes[i].handler) ==> routes[i].guarded
  }

  /** In a table that guards its privileged routes, a privileged handler runs
      only when the gate accepts the request's header, and then with exactly
      the verified claims as `req.user`; when the gate rejects, the answer is
      its 401. */
  lemma PrivilegedRunsOnlyAfterGate(routes: seq<Route>, verb: Verb, path: seq<string>, header: Option<string>, verify: Verifier)
    requires GuardsPrivileged(routes)
    ensures var d := Dispatch(routes, verb, path, header, verify);
      && (d.Invoked? && Privileged(d.handler) ==>
            Authorize(header, verify).Accept? && d.user == Some(Authorize(header, verify).user))
      && (d.Rejected? ==> Authorize(header, verify).Reject? && d.response.status == 401 && d.response.error)
  {
  }

  /** All three routers guard their privileged routes. */
  lemma RoutersGuardPrivileged()
    ensures GuardsPrivileged(AuthRoutes) && GuardsPrivileged(CertRoutes) && GuardsPrivileged(CourseRoutes)
  {
  }

  /** The outcome of a request on a guarded route: the handler with the
      verified claims, or the gate's 401. */
  function Gated(h: Handler, header: Option<string>, verify: Verifier): Dispatched {
    match Authorize(header, verify)
    case Reject(status, message) => Rejected(Failure(status, message))
    case Accept(user) => Invoked(h, Some(user))
  }

  /** A one-segment literal pattern does not match another word. */
  lemma LiteralMismatch(text: string, word: string)
    requires |text| != |word|
    ensures !Matches([Lit(text)], [word])
  {
    var path := [word];
    assert path[0] != text;
  }

  /** `GET /verify/:number` is public: it runs whatever the header. */
  lemma VerifyIsPublic(number: string, header: Option<string>, verify: Verifier)
    requires number != ""
    ensures Dispatch(CertRoutes, Get, ["verify", number], header, verify) == Invoked(VerifyCertificate, None)
  {
    FirstServes(CertRoutes, Get, ["verify", number], 0, header, verify);
  }

  /** Listing and issuing certificates run behind the gate. */
  lemma CertListAndCreateGated(header: Option<string>, verify: Verifier)
    ensures Dispatch(CertRoutes, Get, [], header, verify) == Gated(GetAllCertificates, header, verify)
    ensures Dispatch(CertRoutes, Post, [], header, verify) == Gated(CreateCertificate, header, verify)
  {
    FirstServes(CertRoutes, Get, [], 1, header, verify);
    FirstServes(CertRoutes, Post, [], 2, header, verify);
  }

  /** Deleting a certificate runs behind the gate. */
  lemma CertDeleteGated(id: string, header: Option<string>, verify: Verifier)
    requires id != ""
    ensures Dispatch(CertRoutes, Delete, [id], header, verify) == Gated(DeleteCertificate, header, verify)
  {
    FirstServes(CertRoutes, Delete, [id], 3, header, verify);
  }

  /** Listing courses and fetching one are public. */
  lemma CourseReadsPublic(id: string, header: Option<string>, verify: Verifier)
    requires id != ""
    ensures Dispatch(CourseRoutes, Get, [], header, verify) == Invoked(GetAllCourses, None)
    ensures Dispatch(CourseRoutes, Get, [id], header, verify) == Invoked(GetCourseById, None)
  {
    FirstServes(CourseRoutes, Get, [], 0, header, verify);
    FirstServes(CourseRoutes, Get, [id], 1, header, verify);
  }

  /** Creating and updating a course run behind the gate. */
  lemma CourseWritesGated(id: string, header: Option<string>, verify: Verifier)
    requires id != ""
    ensures Dispatch(CourseRoutes, Post, [], header, verify) == Gated(CreateCourse, header, verify)
    ensures Dispatch(CourseRoutes, Put, [id], header, verify) == Gated(UpdateCourse, header, verify)
  {
    FirstServes(CourseRoutes, Post, [], 2, header, verify);
    FirstServes(CourseRoutes, Put, [id], 3, header, verify);
  }

  /** Deleting a course runs behind the gate. */
  lemma CourseDeleteGated(id: string, header: Option<string>, verify: Verifier)
    requires id != ""
    ensures Dispatch(CourseRoutes, Delete, [id], header, verify) == Gated(DeleteCourse, header, verify)
  {
    FirstServes(CourseRoutes, Delete, [id], 4, header, verify);
  }

  /** Signing in and out are public. */
  lemma SessionRoutesPublic(header: Option<string>, verify: Verifier)
    ensures Dispatch(AuthRoutes, Post, ["login"], header, verify) == Invoked(Login, None)
    ensures Dispatch(AuthRoutes, Post, ["logout"], header, verify) == Invoked(Logout, None)
  {
    FirstServes(AuthRoutes, Post, ["login"], 0, header, verify);
    LiteralMismatch("login", "logout");
    FirstServes(AuthRoutes, Post, ["logout"], 1, header, verify);
  }

  /** Creating an admin is public: anyone may call it. */
  lemma CreateAdminPublic(header: Option<string>, verify: Verifier)
    ensures Dispatch(AuthRoutes, Post, ["create-admin"], header, verify) == Invoked(CreateAdminUser, None)
  {
    LiteralMismatch("login", "create-admin");
    LiteralMismatch("logout", "create-admin");
    FirstServes(AuthRoutes, Post, ["create-admin"], 3, header, verify);
  }

  /** `/me` runs behind the gate, so without a header it answers 401. */
  lemma MeIsGated(header: Option<string>, verify: Verifier)
    ensures Dispatch(AuthRoutes, Get, ["me"], header, verify) == Gated(GetCurrentUser, header, verify)
    ensures Dispatch(AuthRoutes, Get, ["me"], None, verify) == Rejected(Failure(401, NoTokenMessage))
  {
    FirstServes(AuthRoutes, Get, ["me"], 2, header, verify);
    FirstServes(AuthRoutes, Get, ["me"], 2, None, verify);
  }
}

=== FILE: setup_admin.dfy ===
/** The one-shot setup script: if `admin_users` is empty it inserts the
    default administrator, otherwise it does nothing. */
module SetupAdmin {
  import opened Common
  import opened Crypto
  import opened AuthController

  const DefaultEmail: string := "admin@reachoutacademy.com"
  const DefaultPassword: string := "admin123"

  /** How a run of the script ends. */
  datatype Outcome = AlreadySetUp | Created(admin: NewAdmin) | InsertFailed

  /** The row a successful run inserts, as the store stamps it. */
  function DefaultRow(serial: nat, hash: Hasher): (row: AdminRow)
    ensures row.email == Lower(DefaultEmail) && IsLower(row.email)
    ensures row.passwordHash == hash(DefaultPassword, SaltRounds)
  {
    LowerIsLower(DefaultEmail);
    AdminRow(serial, Lower(DefaultEmail), hash(DefaultPassword, SaltRounds), serial, serial)
  }

  /** The table after one run: unchanged when it already had a row or the
      insert failed, otherwise exactly the default row. */
  function AfterSetup(rows: seq<AdminRow>, serial: nat, hash: Hasher, insertFails: bool): seq<AdminRow> {
    if |rows| > 0 || insertFails then rows else [DefaultRow(serial, hash)]
  }

  /** A second run after a successful first one changes nothing, whatever its
      hash or its insert does. */
  lemma SetupIdempotent(rows: seq<AdminRow>, serial: nat, hash: Hasher, serial': nat, hash': Hasher, fails': bool)
    requires AfterSetup(rows, serial, hash, false) != []
    ensures AfterSetup(AfterSetup(rows, serial, hash, false), serial', hash', fails') == AfterSetup(rows, serial, hash, false)
  {
  }

  /** `setupAdminUser`: returns early when any admin exists; otherwise inserts
      the default admin (email stored lower-cased, password stored only as
      its cost-12 hash) and reports success only if the insert succeeded. */
  method SetupAdminUser(admins: AdminTable, hash: Hasher, insertFails: bool) returns (outcome: Outcome)
    requires admins.Valid()
    modifies admins
    ensures admins.Valid()
    ensures admins.rows == AfterSetup(old(admins.rows), old(admins.serial), hash, insertFails)
    ensures admins.serial == if outcome.Created? then old(admins.serial) + 1 else old(admins.serial)
    ensures |old(admins.rows)| > 0 ==> outcome == AlreadySetUp
    ensures |old(admins.rows)| == 0 && insertFails ==> outcome == InsertFailed
    ensures |old(admins.rows)| == 0 && !insertFails ==>
      outcome == Created(NewAdmin(old(admins.serial), Lower(DefaultEmail), old(admins.serial)))
  {
    if |admins.rows| > 0 {
      return AlreadySetUp;
    }
    var passwordHash := hash(DefaultPassword, SaltRounds);
    if insertFails {
      return InsertFailed;
    }
    var row := admins.Insert(DefaultRow(admins.serial, hash).email, passwordHash);
    outcome := Created(NewAdmin(row.id, row.email, row.createdAt));
  }

  /** Running the script twice: the second run finds the admin the first
      inserted (or that was already there) and leaves the table alone. */
  method SetupTwice(admins: AdminTable, hash: Hasher, hash': Hasher, fails': bool) returns (second: Outcome)
    requires admins.Valid()
    modifies admins
    ensures admins.Valid()
    ensures second == AlreadySetUp
    ensures admins.rows == AfterSetup(old(admins.rows), old(admins.serial), hash, false)
  {
    var first := SetupAdminUser(admins, hash, false);
    second := SetupAdminUser(admins, hash', fails');
  }
}

=== FILE: table.dfy ===
/** The relational store the controllers talk to, reduced to what they use: a
    table is the sequence of its rows in insertion order, `.eq(column, v)`
    selects the rows whose column equals `v`, `.single()` accepts a selection
    of exactly one row, and `.order('created_at', {ascending: false})` lists
    the rows newest first. */
module Table {
  import opened Common

  /** The rows of `rows` that satisfy `p`, in table order (`select … where p`). */
  function Select<T>(rows: seq<T>, p: T -> bool): (r: seq<T>)
    ensures |r| <= |rows|
    ensures forall i :: 0 <= i < |r| ==> r[i] in rows && p(r[i])
    ensures forall i :: 0 <= i < |rows| && p(rows[i]) ==> rows[i] in r
  {
    if rows == [] then []
    else (if p(rows[0]) then [rows[0]] else []) + Select(rows[1..], p)
  }

  /** The row selection `column == k`, for the column read by `key`. */
  function KeyIs<T, K(==)>(key: T -> K, k: K): T -> bool {
    x => key(x) == k
  }

  /** The complement of `KeyIs`, the rows a `.delete().eq(column, k)` keeps. */
  function KeyIsNot<T, K(==)>(key: T -> K, k: K): T -> bool {
    x => key(x) != k
  }

  /** `.single()`: the selected row when exactly one row matches; otherwise the
      store reports an error (no row, or more than one). */
  function Single<T>(rows: seq<T>, p: T -> bool): (r: Option<T>)
    ensures r.Some? ==> r.value in rows && p(r.value)
  {
    var m := Select(rows, p);
    if |m| == 1 then assert m[0] in m; Some(m[0]) else None
  }

  /** No two rows agree on the column read by `key` (a unique column). */
  predicate Distinct<T, K(==)>(rows: seq<T>, key: T -> K) {
    forall i, j :: 0 <= i < j < |rows| ==> key(rows[i]) != key(rows[j])
  }

  /** The column read by `key` strictly increases down the table. */
  predicate Increasing<T>(rows: seq<T>, key: T -> int) {
    forall i, j :: 0 <= i < j < |rows| ==> key(rows[i]) < key(rows[j])
  }

  /** The column read by `key` strictly decreases down the sequence. */
  predicate Decreasing<T>(rows: seq<T>, key: T -> int) {
    forall i, j :: 0 <= i < j < |rows| ==> key(rows[i]) > key(rows[j])
  }

  lemma IncreasingIsDistinct<T>(rows: seq<T>, key: T -> int)
    requires Increasing(rows, key)
    ensures Distinct(rows, key)
  {
  }

  /** On a unique column, `.eq(column, k).single()` finds a row exactly when one
      has that value, and then it is that row. */
  lemma {:induction false} SingleOnDistinct<T, K>(rows: seq<T>, key: T -> K, k: K)
    requires Distinct(rows, key)
    ensures Single(rows, KeyIs(key, k)).Some? <==> exists i :: 0 <= i < |rows| && key(rows[i]) == k
    ensures forall i :: 0 <= i < |rows| && key(rows[i]) == k ==> Single(rows, KeyIs(key, k)) == Some(rows[i])
  {
    var p := KeyIs(key, k);
    if i :| 0 <= i < |rows| && key(rows[i]) == k {
      SelectUnique(rows, key, k, i);
      assert Select(rows, p) == [rows[i]];
    } else {
      NoneSelected(rows, key, k);
    }
  }

  /** With a unique column, selecting the value of row `i` yields that row alone. */
  lemma {:induction false} SelectUnique<T, K>(rows: seq<T>, key: T -> K, k: K, i: nat)
    requires Distinct(rows, key)
    requires i < |rows| && key(rows[i]) == k
    ensures Select(rows, KeyIs(key, k)) == [rows[i]]
  {
    var p := KeyIs(key, k);
    if i == 0 {
      NoneSelected(rows[1..], key, k);
    } else {
      assert !p(rows[0]);
      SelectUnique(rows[1..], key, k, i - 1);
    }
  }

  lemma {:induction false} NoneSelected<T, K>(rows: seq<T>, key: T -> K, k: K)
    requires forall j :: 0 <= j < |rows| ==> key(rows[j]) != k
    ensures Select(rows, KeyIs(key, k)) == []
  {
    if rows != [] {
      NoneSelected(rows[1..], key, k);
    }
  }

  /** A `.delete().eq(column, k)` on a unique column removes exactly row `i`,
      the row holding `k`, and keeps every other row in order. */
  lemma {:induction false} DeleteUnique<T, K>(rows: seq<T>, key: T -> K, k: K, i: nat)
    requires Distinct(rows, key)
    requires i < |rows| && key(rows[i]) == k
    ensures Select(rows, KeyIsNot(key, k)) == rows[..i] + rows[i + 1..]
  {
    var p := KeyIsNot(key, k);
    var tail := rows[1..];
    if i == 0 {
      AllSelected(tail, key, k);
      assert Select(rows, p) == tail;
    } else {
      assert key(rows[0]) != k;
      assert Distinct(tail, key);
      DeleteUnique(tail, key, k, i - 1);
      calc {
        Select(rows, p);
        [rows[0]] + Select(tail, p);
        [rows[0]] + (tail[..i - 1] + tail[i..]);
        { assert [rows[0]] + tail[..i - 1] == rows[..i]; assert tail[i..] == rows[i + 1..]; }
        rows[..i] + rows[i + 1..];
      }
    }
  }

  /** A `.delete().eq(column, k)` leaves the table unchanged when no row holds `k`. */
  lemma {:induction false} AllSelected<T, K>(rows: seq<T>, key: T -> K, k: K)
    requires forall j :: 0 <= j < |rows| ==> key(rows[j]) != k
    ensures Select(rows, KeyIsNot(key, k)) == rows
  {
    if rows != [] {
      AllSelected(rows[1..], key, k);
    }
  }

  /** In an increasing column, every row after the first is above it. */
  lemma AboveHead<T>(rows: seq<T>, key: T -> int, x: T)
    requires Increasing(rows, key)
    requires rows != [] && x in rows[1..]
    ensures key(rows[0]) < key(x)
  {
    var k :| 0 <= k < |rows[1..]| && rows[1..][k] == x;
    assert rows[k + 1] == x;
  }

  /** A row below every row of an increasing column can go in front. */
  lemma PrependIncreasing<T>(x: T, rows: seq<T>, key: T -> int)
    requires Increasing(rows, key)
    requires forall j :: 0 <= j < |rows| ==> key(x) < key(rows[j])
    ensures Increasing([x] + rows, key)
  {
    var r := [x] + rows;
    forall i, j | 0 <= i < j < |r| ensures key(r[i]) < key(r[j]) {
      assert r[j] == rows[j - 1];
      if i > 0 {
        assert r[i] == rows[i - 1];
      }
    }
  }

  /** In a unique column, no row after the first shares its value. */
  lemma DiffersFromHead<T, K>(rows: seq<T>, key: T -> K, x: T)
    requires Distinct(rows, key)
    requires rows != [] && x in rows[1..]
    ensures key(rows[0]) != key(x)
  {
    var k :| 0 <= k < |rows[1..]| && rows[1..][k] == x;
    assert rows[k + 1] == x;
  }

  /** Removing rows keeps an increasing column increasing. */
  lemma {:induction false} SelectIncreasing<T>(rows: seq<T>, p: T -> bool, key: T -> int)
    requires Increasing(rows, key)
    ensures Increasing(Select(rows, p), key)
  {
    if rows != [] {
      var tail := rows[1..];
      assert Increasing(tail, key) by {
        forall i, j | 0 <= i < j < |tail| ensures key(tail[i]) < key(tail[j]) {
          assert tail[i] == rows[i + 1] && tail[j] == rows[j + 1];
        }
      }
      SelectIncreasing(tail, p, key);
      var sel := Select(tail, p);
      var r := Select(rows, p);
      if p(rows[0]) {
        assert r == [rows[0]] + sel;
        forall j | 0 <= j < |sel| ensures key(rows[0]) < key(sel[j]) {
          AboveHead(rows, key, sel[j]);
        }
        PrependIncreasing(rows[0], sel, key);
      } else {
        assert r == sel;
      }
    }
  }


  /** Removing rows keeps a unique column unique. */
  lemma {:induction false} SelectDistinct<T, K>(rows: seq<T>, p: T -> bool, key: T -> K)
    requires Distinct(rows, key)
    ensures Distinct(Select(rows, p), key)
  {
    if rows != [] {
      var tail := rows[1..];
      assert Distinct(tail, key) by {
        forall i, j | 0 <= i < j < |tail| ensures key(tail[i]) != key(tail[j]) {
          assert tail[i] == rows[i + 1] && tail[j] == rows[j + 1];
        }
      }
      SelectDistinct(tail, p, key);
      var sel := Select(tail, p);
      var r := Select(rows, p);
      if p(rows[0]) {
        assert r == [rows[0]] + sel;
        forall i, j | 0 <= i < j < |r| ensures key(r[i]) != key(r[j]) {
          assert r[j] == sel[j - 1];
          if i == 0 {
            DiffersFromHead(rows, key, sel[j - 1]);
          } else {
            assert r[i] == sel[i - 1];
          }
        }
      } else {
        assert r == sel;
      }
    }
  }


  /** Appending a row whose column is above every other keeps it increasing. */
  lemma AppendIncreasing<T>(rows: seq<T>, x: T, key: T -> int)
    requires Increasing(rows, key)
    requires forall j :: 0 <= j < |rows| ==> key(rows[j]) < key(x)
    ensures Increasing(rows + [x], key)
  {
  }

  /** Appending a row whose column value no other row holds keeps it unique. */
  lemma AppendDistinct<T, K>(rows: seq<T>, x: T, key: T -> K)
    requires Distinct(rows, key)
    requires forall j :: 0 <= j < |rows| ==> key(rows[j]) != key(x)
    ensures Distinct(rows + [x], key)
  {
  }

  function Reverse<T>(s: seq<T>): (r: seq<T>)
    ensures |r| == |s|
    ensures forall i :: 0 <= i < |s| ==> r[i] == s[|s| - 1 - i]
  {
    if s == [] then [] else Reverse(s[1..]) + [s[0]]
  }

  /** Listing a table whose column increases with insertion in reverse order
      gives the rows with that column decreasing, i.e. newest first, and the
      listing holds exactly the rows of the table. */
  lemma ReverseDecreasing<T>(rows: seq<T>, key: T -> int)
    requires Increasing(rows, key)
    ensures Decreasing(Reverse(rows), key)
    ensures multiset(Reverse(rows)) == multiset(rows)
  {
    ReversePermutes(rows);
  }

  lemma {:induction false} ReversePermutes<T>(s: seq<T>)
    ensures multiset(Reverse(s)) == multiset(s)
  {
    if s != [] {
      ReversePermutes(s[1..]);
      assert s == [s[0]] + s[1..];
    }
  }

  /** `.update(patch).eq(column, k)`: every row with that value goes through `f`. */
  function UpdateWhere<T, K(==)>(rows: seq<T>, key: T -> K, k: K, f: T -> T): (r: seq<T>)
    ensures |r| == |rows|
    ensures forall i :: 0 <= i < |rows| ==> r[i] == if key(rows[i]) == k then f(rows[i]) else rows[i]
  {
    seq(|rows|, i requires 0 <= i < |rows| => if key(rows[i]) == k then f(rows[i]) else rows[i])
  }
}

=== FILE: verify_page.dfy ===
/** The public certificate-verification page: a number field, a submit that
    asks the backend about the trimmed number, and the result panel. */
module VerifyPage {
  import opened Common
  import opened BrowserState
  import CertController

  const EnterNumber: string := "Please enter a certificate number"
  const NotFoundMessage: string := "Certificate not found. Please check the certificate number and try again."
  const GenericMessage: string := "An error occurred while verifying the certificate. Please try again."
  const VerifiedHeadline: string := "Certificate Verified"
  const FoundHeadline: string := "Certificate Found"

  /** The result panel's headline. */
  function Headline(verified: bool): (h: string)
    ensures h == VerifiedHeadline <==> verified
    ensures !verified ==> h == FoundHeadline
  {
    if verified then VerifiedHeadline else FoundHeadline
  }

  class VerifyCertificatePage {
    var certNumber: string
    var certificate: Option<CertController.Certificate>
    var loading: bool
    var error: string
    var verified: bool

    constructor ()
      ensures certNumber == "" && certificate.None? && !loading && error == "" && !verified
    {
      certNumber := "";
      certificate := None;
      loading := false;
      error := "";
      verified := false;
    }

    /** Typing in the number field. */
    method SetCertNumber(value: string)
      modifies this
      ensures certNumber == value
      ensures certificate == old(certificate) && loading == old(loading) && error == old(error) && verified == old(verified)
    {
      certNumber := value;
    }

    /** The synchronous part of `handleSubmit`. A blank or all-space number
        sets the prompt and sends nothing; otherwise the previous result and
        error are cleared, `loading` is set, and the trimmed number is the one
        to send. */
    method BeginSubmit() returns (request: Option<string>)
      modifies this
      ensures certNumber == old(certNumber)
      ensures AllSpace(certNumber) ==>
        request.None? && error == EnterNumber
        && certificate == old(certificate) && loading == old(loading) && verified == old(verified)
      ensures !AllSpace(certNumber) ==>
        request == Some(Trim(certNumber)) && request.value != ""
        && error == "" && certificate.None? && !verified && loading
    {
      var number := Trim(certNumber);
      if number == "" {
        error := EnterNumber;
        return None;
      }
      loading := true;
      error := "";
      certificate := None;
      verified := false;
      request := Some(number);
    }

    /** The rest of `handleSubmit`, once the backend has answered: a success
        shows the record and takes `verified` from the answer's `valid`; a
        404 shows the not-found message, any other failure the generic one,
        with no record either way. `loading` ends false. */
    method FinishSubmit(reply: Reply<CertController.VerifyBody>)
      requires certificate.None? && !verified && error == ""
      modifies this
      ensures certNumber == old(certNumber) && !loading
      ensures reply.Ok? ==>
        certificate == Some(reply.data.certificate) && verified == reply.data.valid && error == ""
      ensures !reply.Ok? ==> certificate.None? && !verified
      ensures reply.HttpError? && reply.status == 404 ==> error == NotFoundMessage
      ensures !reply.Ok? && !(reply.HttpError? && reply.status == 404) ==> error == GenericMessage
    {
      match reply {
        case Ok(body) =>
          certificate := Some(body.certificate);
          verified := body.valid;
        case HttpError(status, _) =>
          error := if status == 404 then NotFoundMessage else GenericMessage;
        case NetworkError(_) =>
          error := GenericMessage;
      }
      loading := false;
    }

    /** `resetForm`: empties the number and clears the result and error. */
    method ResetForm()
      modifies this
      ensures certNumber == "" && certificate.None? && error == "" && !verified && loading == old(loading)
    {
      certNumber := "";
      certificate := None;
      error := "";
      verified := false;
    }
  }

  /** The page never asks the backend about an empty number, so the backend's
      400 answer cannot reach it; and when the backend finds the number, the
      headline reads "Certificate Verified" exactly when the record's status
      is 'Valid'. */
  lemma PageAgreesWithBackend(rows: seq<CertController.Certificate>, typed: string)
    requires !AllSpace(typed)
    ensures CertController.VerifyCertificate(rows, Trim(typed), false).status != 400
    ensures var r := CertController.VerifyCertificate(rows, Trim(typed), false);
      r.status == 200 ==>
        (Headline(r.data.value.valid) == VerifiedHeadline <==> CertController.IsValid(r.data.value.certificate))
  {
  }

  /** A submission that reached the backend always ends with `loading` false,
      whatever the answer. */
  method Submit(page: VerifyCertificatePage, reply: Reply<CertController.VerifyBody>) returns (request: Option<string>)
    modifies page
    ensures request.None? <==> AllSpace(page.certNumber)
    ensures request.Some? ==> !page.loading && request.value == Trim(page.certNumber)
    ensures request.Some? && reply.Ok? ==> page.verified == reply.data.valid
  {
    request := page.BeginSubmit();
    if request.Some? {
      page.FinishSubmit(reply);
    }
  }
}
